=== FILE: README.md ===
# libuvc device descriptor parsing, in Dafny

This project models the part of libuvc's `src/device.c` that turns a USB
Video Class (UVC) camera's descriptors into the library's device tree. It
also models the status-packet decoder and the device list, lookup, reference
counting and open/close bookkeeping.

- **Descriptor scan** (`scan.dfy`, module `DescriptorScan`). The
  class-specific bytes of an interface are a run of self-delimited blocks;
  the first byte of each block is its length. The scan hands each block to a
  parser, advances by the length byte, stops without error once fewer than 3
  bytes remain, and ends at the first parser error. The VideoControl scan and
  the VideoStreaming scan are the same generic function.
- **VideoControl side** (`control.dfy`, `ControlParser`). This covers the
  dispatch on descriptor subtype and the header, which names the
  VideoStreaming interfaces to scan. It also covers the camera input
  terminal, the processing unit, the extension unit, the search for the
  VideoControl interface, and building a device's `DeviceInfo`. The formats
  follow UVC 1.1, section 3.7.2 and its subsections.
- **VideoStreaming side** (`streaming.dfy`, `StreamingParser`). This covers
  the input header (UVC 1.1, section 3.9.2.1), the uncompressed format and
  frame descriptors (UVC 1.1 Uncompressed Payload, sections 3.1.1 and 3.1.2),
  and the per-interface scan.
- **Little-endian fields and control bitmaps** (`bytes.dfy`, `Bytes`). The
  library folds a run of control bytes into a 64-bit mask, last byte first.
  The model proves that this fold equals the little-endian value of the bytes
  modulo 2^64.
- **Status packets** (`status.dfy`, `Status`), as laid out in UVC 1.1,
  section 2.4.2.2. This covers decoding a packet into the arguments of the
  user's status callback, and deciding whether the interrupt transfer is
  resubmitted.
- **Devices** (`devices.dfy`, `Devices`). This covers the UVC device list,
  first-match lookup by vendor, product and serial number, and reference
  counting. It also covers the effect of opening and closing a device on its
  reference count and on the context's list of open handles.

The device tree is an immutable value: every parent holds its children as an
ordered sequence, and the library's back pointers are implied by nesting.
Every parser is a pure function returning `Result<T>`. The transport library
is represented by the data it answers with:

- configuration 0 of each device, or its absence when the fetch fails;
- the device descriptor, or its absence;
- the outcomes of the open, device-info allocation, claim, transfer-allocation and submit steps.

`Common.Error` has five of the library's codes (Io, NoDevice, NoMem,
InvalidDevice, NotSupported), `Transport(code)` for any other code the
transport library reports and the device functions pass on unchanged (an
access failure on open, a busy interface on claim), and `Malformed`. The model returns
`Malformed` for a zero or overlong length byte, for a block shorter than
the fields its parser reads, for a frame with no format before it, and for
an interface index past the configuration. The library does not always
misbehave in these cases. On a zero or overlong length byte it parses the
block first. If that parse fails, the loop stops with the parser's own
error, and the model's `Malformed` replaces that error. A length byte of 1
or 2 with more bytes behind it is also well defined in the library. These
points are listed under "Where the model departs from the code" below.

## Model

| member | source | states |
|---|---|---|
| `DescriptorScan.Scan` | src/device.c:590-601 | The scan succeeds unchanged on a region under 3 bytes. It fails with Malformed when the leading length byte is 0 or longer than the region. |
| `DescriptorScan.FrameShape` | src/device.c:590-601 | The blocks the loop visits lie back to back from the start of the region. Each is as long as its own first byte, and each starts with at least 3 bytes left. The walk is complete exactly when under 3 bytes remain after the last block; otherwise it stops at a zero or overlong length byte. |
| `DescriptorScan.ScanIsApplyOverFrame` | src/device.c:787-798 | The scan equals running the parser over those blocks in order. The result is the first parser error, else Malformed for a bad length byte, else the final state. So the scan advances by the length byte whatever the parser read. |
| `DescriptorScan.ScanPreserves` | src/device.c:590-601 | Any invariant that every successful parse step keeps holds of the result of every successful scan. |
| `DescriptorScan.StepAsWritten` | src/device.c:596-600 | One turn of the library's loop moves the offset by the block's length byte. The unsigned count of bytes left drops by the same amount when it is at least that large, and otherwise wraps to 2^64 plus the (negative) difference. |
| `DescriptorScan.ZeroLengthBlockLoopsForever` | src/device.c:590-600 | As written, the bytes `[0, 0, 0]` (length byte 0) leave the loop state unchanged while the loop guard still holds. |
| `ControlParser.ZeroLengthControlBlockSpins` | src/device.c:590-600 | The library's dispatcher accepts `[0, 0, 0]`, because byte 1 is not 36 (lines 734-735), and the loop's cursor stays put, so the control scan as written never ends. The corrected scan returns Malformed. |
| `DescriptorScan.OverlongBlockWrapsCount` | src/device.c:787-798 | As written, a length byte past the end wraps the byte count to 2^64 - 6 and the loop goes on. |
| `ControlParser.BadLengthReplacesParserError` | src/device.c:590-600 | The library parses a block before it moves the cursor, so VideoControl bytes `[0, 36, 7]` and `[9, 36, 7]` stop its loop with InvalidDevice (lines 756-757). The model's scan returns Malformed for both instead. |
| `StreamingParser.OverlongStreamingBlockWraps` | src/device.c:787-798 | As written, the VideoStreaming dispatcher skips `[9, 36, 2]` (subtype 2, lines 917-919), and the byte count then wraps to 2^64 - 6 with the loop still running. The corrected scan returns Malformed. |
| `DescriptorScan.ScanRejectsBadLengths` | src/device.c:590-600 | The corrected scan returns Malformed for both of those inputs. |
| `Bytes.Le16` | src/device.c:622 | The 16-bit field at offset i is the little-endian value of bytes i and i+1. |
| `Bytes.Le32` | src/device.c:866-869 | The 32-bit field at offset i is the little-endian value of bytes i to i+3. |
| `Bytes.FoldControlsValue` | src/device.c:666-667 | The library's fold (last byte first, acc = byte + acc << 8 on 64 bits) equals the little-endian value of the bytes plus the starting accumulator shifted past them, modulo 2^64. |
| `Bytes.ControlMask` | src/device.c:666-667 | A control mask is the little-endian value of its control bytes modulo 2^64. It is exactly that value when there are at most 8 bytes, and 0 when there are none. |
| `Bytes.ControlMaskOfLeBytes` | src/device.c:688-689 | Folding the n-byte little-endian encoding of any 64-bit mask gives the mask back. |
| `Common.FirstIndex` | src/device.c:571-578 | The position returned is in range and satisfies the test, and no earlier position does. None is returned exactly when no element satisfies the test. |
| `ControlParser.ScanControl` | src/device.c:561-604 | A configuration with no VideoControl interface is InvalidDevice. Otherwise the result is the scan of the first VideoControl interface's bytes with the VideoControl block parser, starting from an empty tree whose status endpoint is that interface's first endpoint (or 0). Every successful result is well formed. |
| `ControlParser.ScanControlKeeps` | src/device.c:590-601 | Each VideoControl block keeps well-formedness and the status endpoint. |
| `ControlParser.GetDeviceInfo` | src/device.c:213-238 | A failed allocation of the record is NoMem, and a configuration that cannot be fetched is Io. Otherwise the result is the control scan's, well formed on success. |
| `ControlParser.ParseVc` | src/device.c:727-761 | A block whose type byte is not 36 leaves the tree unchanged. So do output terminals and selector units. Header, input terminal, processing unit and extension unit blocks each go to their own parser, whose result is the result. Subtypes outside 1 to 6 are InvalidDevice. A class-specific block of only 2 bytes, whose subtype would be read past its end, is Malformed. Every success only appends to the collections and keeps the status endpoint; a header also records its version. |
| `ControlParser.ParseVcKeepsWellFormed` | src/device.c:727-761 | Parsing one VideoControl block keeps the tree well formed: the version is supported or unset, the terminals are cameras, and interval lists are terminated. |
| `ControlParser.ParseVcHeader` | src/device.c:610-642 | bcdUVC is the little-endian short at bytes 3-4. Any value other than 0x0100, 0x010A or 0x0110 is NotSupported. Otherwise the version is recorded and the interfaces named by the bytes from offset 12 to the end are scanned in order. The header succeeds exactly when every one of those scans does, and appends their records in order. Otherwise it fails with the error of the first scan that fails. |
| `ControlParser.ScanInterfaces` | src/device.c:633-639 | It succeeds exactly when every listed interface's own streaming scan succeeds. Record k appended is the scan of the k-th listed interface, and the control part is untouched. On failure the error is that of the first listed interface whose scan fails. An index beyond the configuration fails. |
| `ControlParser.ScannedRecords` | src/device.c:633-639 | Whatever the interface scans produce: an index past the configuration fails the header, and every appended record carries the number of the interface it was scanned from and is well formed. |
| `StreamingParser.InterfaceScan` | src/device.c:767-801 | An index past the configuration is Malformed. A successful record carries the interface's number and has every discrete interval list terminated. |
| `ControlParser.HeaderRoundTrip` | src/device.c:622-633 | An encoded header reads back its version and its list of interface numbers. |
| `ControlParser.EmptyHeaderRecordsVersion` | src/device.c:622-639 | A supported header listing no interfaces records its version and changes nothing else. |
| `ControlParser.ParseInputTerminal` | src/device.c:648-672 | It succeeds exactly when bytes 4-5 are present and either name a non-camera type or the block holds the bControlSize bytes after byte 14. A non-camera terminal leaves the tree unchanged. A camera terminal appends exactly one terminal at the end. Its ID is byte 3, its focal lengths are read from bytes 8, 10 and 12, and its mask is read from the bControlSize bytes after byte 14. |
| `ControlParser.CameraTerminalRoundTrip` | src/device.c:655-669 | Parsing an encoded camera terminal appends exactly that terminal. |
| `ControlParser.ParseProcessingUnit` | src/device.c:678-694 | Exactly one unit is appended, with unit ID byte 3, source ID byte 4, and the mask of the bControlSize bytes after byte 7. This happens iff the block holds those bytes. |
| `ControlParser.ProcessingUnitRoundTrip` | src/device.c:678-694 | Parsing an encoded processing unit appends exactly that unit. |
| `ControlParser.ParseExtensionUnit` | src/device.c:700-721 | Exactly one unit is appended, with ID byte 3 and GUID bytes 4-19. Its mask is read from bControlSize = byte 22+p bytes starting at 23+p, where p = byte 21. This happens iff the block holds those bytes. |
| `ControlParser.ExtensionUnitRoundTrip` | src/device.c:711-716 | Parsing an encoded extension unit appends exactly that unit, whatever its number of input pins. |
| `StreamingParser.ScanStreaming` | src/device.c:767-801 | An interface index beyond the configuration is Malformed. Otherwise the result is the generic scan of that interface's bytes from an empty record carrying the interface number, and on success exactly that record is appended to the streams. |
| `StreamingParser.ParseVs` | src/device.c:896-923 | Input header, uncompressed format and uncompressed frame blocks each go to their own parser, whose result is the result. Subtypes other than input header, uncompressed format and uncompressed frame leave the stream unchanged. Parsing never changes the interface number and keeps interval lists terminated. |
| `StreamingParser.EndpointAddress` | src/device.c:810 | Masking with 0x8f keeps the endpoint number (low 4 bits) and the direction bit, and clears bits 4-6. |
| `StreamingParser.ParseInputHeader` | src/device.c:807-814 | The endpoint address comes from byte 6, masked, and the terminal link from byte 8; nothing else changes. |
| `StreamingParser.ParseFormatUncompressed` | src/device.c:820-841 | Exactly one format is appended, with index byte 3, GUID bytes 5-20 and bytes 21-26 as its remaining fields. |
| `StreamingParser.FormatRoundTrip` | src/device.c:820-841 | Parsing an encoded format appends exactly that format. |
| `StreamingParser.AppendFrame` | src/device.c:856-887 | Only the last format changes, and it gains the frame at the end of its frames. |
| `StreamingParser.ParseFrameUncompressed` | src/device.c:847-890 | It succeeds iff a format precedes the frame and the block holds its intervals. It then appends a frame the block describes: interval type 0 gives min/max/step from bytes 26/30/34; N > 0 gives N dwords from 26+4k and then a 0 terminator. |
| `StreamingParser.FrameRoundTrip` | src/device.c:856-887 | Parsing an encoded frame, continuous or discrete, appends exactly that frame to the last format. |
| `StreamingParser.DescribedFrameIsUnique` | src/device.c:856-887 | A frame block describes at most one frame, so the parser's result is determined by the block. |
| `StreamingParser.FrameKeepsWellFormed` | src/device.c:875-884 | Appending a parsed frame keeps every discrete interval list terminated by 0. |
| `Status.ProcessStatus` | src/device.c:981-1056 | The callback arguments are exactly the reference meaning of the packet. There is no callback under 5 bytes. Otherwise the data is the bytes after the fifth, the selector is byte 3 and the attribute is byte 4. |
| `Status.OnStatusTransfer` | src/device.c:1061-1075 | Error, cancelled and no-device never resubmit; every other status resubmits. Only a completed transfer is decoded. |
| `Status.AsWrittenAgreesOnVideoControl` | src/device.c:990-1040 | The library's own VideoControl checks are modelled step by step: at least 5 bytes, a non-zero originator, event 0, then a search of the terminals and then the processing units. On VideoControl packets they call back exactly when the reference meaning gives arguments, and with those arguments. |
| `Status.UnknownStatusTypeReachesCallback` | src/device.c:997-1055 | The packet `[3, 5, 0, 7, 3]` from known camera terminal 5 reaches the callback as written, with its class unset. The reference gives no callback for it, although it gives one for the same packet with status type 1. |
| `Status.SixBytePacketCarriesOneByte` | src/device.c:1042-1044 | A 6-byte packet from a known camera terminal carries one byte of data, with the selector and attribute from bytes 3 and 4. |
| `Devices.RefDevice` | src/device.c:484-487 | Taking a reference raises the count by one and keeps the device. |
| `Devices.UnrefDevice` | src/device.c:496-502 | Dropping a reference lowers the count by one; the record goes exactly when the last reference goes. |
| `Devices.UnrefUndoesRef` | src/device.c:484-502 | Dropping a reference just taken restores the device. |
| `Devices.HasStreamingInterface` | src/device.c:416-431 | The capability test is true exactly when some alternate setting of some interface is class 14, subclass 2. |
| `Devices.UvcDevicesMembership` | src/device.c:409-448 | The listing holds exactly the devices whose configuration can be read and declares VideoStreaming, each with one reference. |
| `Devices.UvcDevicesSnoc` | src/device.c:409-448 | Listing one more USB device appends it exactly when it is a UVC device. |
| `Devices.GetDeviceList` | src/device.c:372-455 | A negative device count is Io. Otherwise the result is the UVC devices in transport order, each with one reference. |
| `Devices.NegativeCountGoesUnnoticed` | src/device.c:397-401 | As written, the failure test on the unsigned count never fires, not even for the transport's -1. |
| `Devices.FindDevice` | src/device.c:84-127 | When the listing succeeds and some listed UVC device matches, a device is found. It is the first listed UVC device whose readable descriptor matches vendor (0 = any), product (0 = any) and serial (absent = any), with one reference. No match is NoDevice, and a listing failure is Io. |
| `Devices.AlreadyOpen` | src/device.c:63-72 | True exactly when some open handle in the context belongs to the USB device. |
| `Devices.NumDevices` | src/device.c:969-979 | The count of open handles in the context. |
| `Devices.Open` | src/device.c:136-202 | It succeeds exactly when the transport opens the device, the device info is allocated and the descriptors parse, the interfaces are claimed, and the status transfer is allocated and submitted where there is a status endpoint. On success one handle is appended and the device gains a reference. The handle records the iSight flag and whether status is armed. A failed transfer allocation is NoMem. A failed open, claim or submit returns the error that step reported, unchanged. |
| `Devices.Close` | src/device.c:951-964 | The handle leaves the context with the others kept in order, and the device loses one reference. |
| `Devices.OpenMakesOpen` | src/device.c:136-202 | After a successful open the device is open in the context. |
| `Devices.CloseUndoesOpen` | src/device.c:951-964 | Closing the handle an open appended restores the context and the device's reference count. |

## Where the model departs from the code

- **Zero or overlong length byte.** The library parses such a block before
  it moves the cursor. When that parse fails, the loop stops with the
  parser's error; VideoControl bytes `[0, 36, 7]` or `[9, 36, 7]` give
  InvalidDevice. Only when the parse succeeds does the loop spin forever on
  a length byte of 0, or wrap its unsigned count on one past the end (see
  Findings). The model returns Malformed for both, before parsing, so on a
  failing block Malformed replaces the parser's own error
  (`ControlParser.BadLengthReplacesParserError`).
- **Reads past a block's length.** The sub-parsers read fixed offsets
  without looking at the block size. On a short block they read into the
  next descriptor or beyond the buffer. In the model every sub-parser sees
  only its block, and a block too short for the fields read is Malformed.
  This includes blocks whose length byte is 1 or 2 with more bytes after
  them, which the library parses from those following bytes.
  This covers:
  - the dispatch's bytes 1-2;
  - the header's bytes 3-4;
  - the terminal's bytes up to 14 + bControlSize;
  - the processing unit's bytes up to 7 + bControlSize;
  - the extension unit's bytes up to 22 + p + bControlSize;
  - the input header's bytes 6 and 8;
  - the format's 27 bytes;
  - the frame's 38 bytes (continuous) or 26 + 4N bytes (discrete).
- **Non-camera input terminal.** The library returns from a function with a
  result type without giving a value, so the result is undefined. The model
  reads it as success with nothing appended.
- **Frame with no preceding format.** The library dereferences an empty
  format list. The model returns Malformed.
- **Unchecked interface index.** The header's interface numbers are used as
  positions in the configuration without a bounds check. One beyond the
  configuration is Malformed.
- **Version stored before validation.** The library writes bcdUVC into the
  tree before checking it. The model records it only when it is supported.
  The difference cannot be observed, because the library discards the tree
  when the header fails.
- **Streaming record appended before its scan.** The library links the
  streaming record into the tree before scanning it. The model appends it
  after a successful scan. The difference cannot be observed, for the same
  reason.
- **Status packets of unknown type** do not reach the callback (see
  Findings).
- **Negative device count.** A negative count from the transport is an Io
  error (see Findings).
- **Unset status callback.** The library calls the status callback pointer
  without checking that one was set. The model returns the callback's
  arguments and leaves the call to the caller.

## Left out

- Bytes.ControlMask: assumes the library's bmControls fields are 64 bits wide; their declarations are in libuvc.h, which is not part of this model.
- Constants: the class codes, descriptor subtypes, ITT_CAMERA (0x0201) and the SW_TO_SHORT / DW_TO_INT macros are defined in libuvc's headers, which are not part of this model. The values are taken from UVC 1.1 tables A-1, A-2, A-4, A-5, A-6 and B-2.
- Bytes.Le32: DW_TO_INT builds a 32-bit value through int arithmetic, which overflows a signed int when the top byte is 0x80 or more; the model reads it as the unsigned value.
- All transport I/O (opening devices, fetching configuration and string descriptors, claiming interfaces, detaching kernel drivers, allocating and submitting transfers) is represented by its outcome, given as input data. A failing step's code is kept as it is reported, as `Transport(code)` when it is none of the five library codes the model names; the numeric values of the codes are not modelled.
- Memory release (freeing device info, handles, descriptors and lists): immutable values make it moot.
- Logging (`printf`, `fprintf`).
- The threads and the asynchrony of the status transfer, and the race between close and resubmission: concurrency is out of scope.
- Streaming start and stop, and frame buffers, which close touches: they live outside this file.
- `uvc_get_device_descriptor`: its serial-number fetch is represented by the descriptor given with each device.

## Findings

| source | as written | input that shows it | evidently intended | confidence | as-written member | corrected member |
|---|---|---|---|---|---|---|
| src/device.c:590-600 | the loop advances by the block's length byte, which may be 0 | VideoControl extra bytes `[0, 0, 0]`, which the dispatcher accepts because byte 1 is not 36 | reject a zero-length descriptor | not executed | `ControlParser.ZeroLengthControlBlockSpins` | `DescriptorScan.Scan` |
| src/device.c:787-798 | the unsigned count of bytes left drops by a length byte that may exceed it | VideoStreaming extra bytes `[9, 36, 2]`, which the dispatcher accepts because subtype 2 is skipped | reject a descriptor running past the end | not executed | `StreamingParser.OverlongStreamingBlockWraps` | `DescriptorScan.ScanRejectsBadLengths` |
| src/device.c:997-1055 | a status type other than 1 or 2 falls through to the callback with its class unset | packet `[3, 5, 0, 7, 3]` from known terminal 5 | drop packets of unknown status type | not executed | `Status.UnknownStatusTypeReachesCallback` | `Status.ProcessStatus` |
| src/device.c:397-401 | the device count is a size_t, so the test for a negative count never holds | transport count -1 | return an Io error when listing fails | not executed | `Devices.NegativeCountGoesUnnoticed` | `Devices.GetDeviceList` |

=== FILE: bytes.dfy ===
/**
  Byte-level helpers for the UVC descriptor parser: fixed-width unsigned
  integer types, little-endian field reads at fixed offsets, their encoders,
  and the fold that turns a bmControls byte array into a 64-bit mask.
 */
module Bytes {

  type byte = x: int | 0 <= x < 0x100
  type uint16 = x: int | 0 <= x < 0x1_0000
  type uint32 = x: int | 0 <= x < 0x1_0000_0000
  type uint64 = x: int | 0 <= x < 0x1_0000_0000_0000_0000

  const TWO_64: nat := 0x1_0000_0000_0000_0000

  /** 256 to the power n: the number of values n bytes can hold. */
  function Pow256(n: nat): (r: nat)
    ensures r >= 1
  {
    if n == 0 then 1 else 256 * Pow256(n - 1)
  }

  lemma {:induction false} Pow256Monotone(m: nat, n: nat)
    requires m <= n
    ensures Pow256(m) <= Pow256(n)
    decreases n
  {
    if m < n {
      Pow256Monotone(m, n - 1);
    }
  }

  /** The unsigned value of bs read little-endian: bs[0] is the least significant byte. */
  function LeValue(bs: seq<byte>): (r: nat)
    ensures r < Pow256(|bs|)
  {
    if |bs| == 0 then 0 else bs[0] + 256 * LeValue(bs[1..])
  }

  /** Appending a byte adds it at the next more significant position. */
  lemma {:induction false} LeValueSnoc(bs: seq<byte>, b: byte)
    ensures LeValue(bs + [b]) == LeValue(bs) + b * Pow256(|bs|)
  {
    if |bs| > 0 {
      var t := bs[1..];
      assert (bs + [b])[1..] == t + [b];
      LeValueSnoc(t, b);
      SnocArith(bs[0], LeValue(t), b, Pow256(|t|));
    }
  }

  lemma SnocArith(h: nat, a: nat, b: nat, p: nat)
    ensures h + 256 * (a + b * p) == (h + 256 * a) + b * (256 * p)
  {
  }

  /** The 16-bit little-endian field at offset i (the source's SW_TO_SHORT). */
  function Le16(s: seq<byte>, i: nat): (r: uint16)
    requires i + 2 <= |s|
    ensures r == LeValue(s[i..i + 2])
  {
    assert s[i..i + 2][1..] == [s[i + 1]];
    s[i] as int + 256 * s[i + 1] as int
  }

  /** The 32-bit little-endian field at offset i (the source's DW_TO_INT). */
  function Le32(s: seq<byte>, i: nat): (r: uint32)
    requires i + 4 <= |s|
    ensures r == LeValue(s[i..i + 4])
  {
    assert s[i..i + 4][1..] == s[i + 1..i + 4];
    assert s[i + 1..i + 4][1..] == s[i + 2..i + 4];
    assert s[i + 2..i + 4][1..] == [s[i + 3]];
    assert LeValue(s[i + 2..i + 4]) == s[i + 2] as int + 256 * s[i + 3] as int;
    assert LeValue(s[i + 1..i + 4]) == s[i + 1] as int + 256 * LeValue(s[i + 2..i + 4]);
    s[i] as int + 256 * s[i + 1] as int + 0x1_0000 * s[i + 2] as int + 0x100_0000 * s[i + 3] as int
  }

  /** The n-byte little-endian encoding of v, keeping its n low bytes. */
  function LeBytes(v: nat, n: nat): (bs: seq<byte>)
    ensures |bs| == n
  {
    if n == 0 then [] else [v % 256] + LeBytes(v / 256, n - 1)
  }

  /** Reading back an encoding that fits gives the encoded value. */
  lemma {:induction false} LeValueOfLeBytes(v: nat, n: nat)
    requires v < Pow256(n)
    ensures LeValue(LeBytes(v, n)) == v
  {
    if n > 0 {
      LeValueOfLeBytes(v / 256, n - 1);
      assert LeBytes(v, n)[1..] == LeBytes(v / 256, n - 1);
    }
  }

  lemma Le16OfLeBytes(v: uint16)
    ensures Le16(LeBytes(v, 2), 0) == v
  {
    LeValueOfLeBytes(v, 2);
    assert LeBytes(v, 2)[0..2] == LeBytes(v, 2);
  }

  lemma Le32OfLeBytes(v: uint32)
    ensures Le32(LeBytes(v, 4), 0) == v
  {
    LeValueOfLeBytes(v, 4);
    assert LeBytes(v, 4)[0..4] == LeBytes(v, 4);
  }

  /**
    The loop the source runs over a bmControls array: the bytes are visited
    from the last to the first, and each visit shifts the 64-bit accumulator
    up by one byte and adds the visited byte. Bits shifted past bit 63 are lost.
   */
  function FoldControls(bs: seq<byte>, acc: uint64): uint64
    decreases |bs|
  {
    if |bs| == 0 then acc
    else FoldControls(bs[..|bs| - 1], (bs[|bs| - 1] + acc * 256) % TWO_64)
  }

  lemma AddMultipleMod(a: int, k: int)
    ensures (a + k * TWO_64) % TWO_64 == a % TWO_64
  {
  }

  /** Reducing a factor modulo 2^64 before multiplying does not change the product modulo 2^64. */
  lemma MulModLeft(x: nat, p: nat, y: nat)
    ensures (y + (x % TWO_64) * p) % TWO_64 == (y + x * p) % TWO_64
  {
    var q := x / TWO_64;
    assert x == q * TWO_64 + x % TWO_64;
    assert x * p == (x % TWO_64) * p + (q * p) * TWO_64;
    AddMultipleMod(y + (x % TWO_64) * p, q * p);
  }

  /** The arithmetic of one fold step: reducing the accumulator before the shift changes nothing mod 2^64. */
  lemma FoldArith(low: nat, last: nat, acc: nat, p: nat, f: int)
    requires f == (low + ((last + acc * 256) % TWO_64) * p) % TWO_64
    ensures f == (low + last * p + acc * (256 * p)) % TWO_64
  {
    MulModLeft(last + acc * 256, p, low);
    ShiftArith(low, last, acc, p);
  }

  /**
    One fold step in numbers: if the fold of the first bytes is their value
    plus the shifted accumulator mod 2^64, so is the fold of one byte more.
   */
  lemma FoldStep(f: int, value: nat, low: nat, last: nat, acc: nat, p: nat, pn: nat)
    requires f == (low + ((last + acc * 256) % TWO_64) * p) % TWO_64
    requires value == low + last * p && pn == 256 * p
    ensures f == (value + acc * pn) % TWO_64
  {
    FoldArith(low, last, acc, p, f);
  }

  lemma ShiftArith(low: nat, last: nat, acc: nat, p: nat)
    ensures low + (last + acc * 256) * p == (low + last * p) + acc * (256 * p)
  {
  }

  /** What the fold computes: the little-endian value, with the starting accumulator above it, mod 2^64. */
  lemma {:induction false} FoldControlsValue(bs: seq<byte>, acc: uint64)
    ensures FoldControls(bs, acc) == (LeValue(bs) + acc * Pow256(|bs|)) % TWO_64
    decreases |bs|
  {
    if |bs| > 0 {
      var init, last := bs[..|bs| - 1], bs[|bs| - 1];
      var y: uint64 := (last + acc * 256) % TWO_64;
      FoldControlsValue(init, y);
      assert init + [last] == bs;
      FoldSnoc(init, last, acc, y);
    }
  }

  /** The inductive step of FoldControlsValue: one more byte at the end. */
  lemma FoldSnoc(init: seq<byte>, last: byte, acc: uint64, y: uint64)
    requires y == (last + acc * 256) % TWO_64
    requires FoldControls(init, y) == (LeValue(init) + y * Pow256(|init|)) % TWO_64
    ensures FoldControls(init + [last], acc) == (LeValue(init + [last]) + acc * Pow256(|init| + 1)) % TWO_64
  {
    var bs := init + [last];
    assert bs[..|bs| - 1] == init && bs[|bs| - 1] == last;
    assert FoldControls(bs, acc) == FoldControls(init, y);
    LeValueSnoc(init, last);
    FoldStep(FoldControls(bs, acc), LeValue(bs), LeValue(init), last, acc, Pow256(|init|), Pow256(|init| + 1));
  }

  lemma ShortArraysFit(bs: seq<byte>)
    ensures |bs| <= 8 ==> LeValue(bs) < TWO_64
  {
    if |bs| <= 8 {
      Pow256Monotone(|bs|, 8);
      assert Pow256(8) == TWO_64;
    }
  }

  /**
    The control bitmask of an entity built from its bmControls bytes: the
    bytes read as a little-endian number, first byte least significant,
    truncated to 64 bits. Up to eight bytes nothing is lost.
   */
  function ControlMask(bs: seq<byte>): (mask: uint64)
    ensures mask == LeValue(bs) % TWO_64
    ensures |bs| <= 8 ==> mask == LeValue(bs)
  {
    FoldControlsValue(bs, 0);
    ShortArraysFit(bs);
    FoldControls(bs, 0)
  }

  /** Encoding a mask into n bytes and folding it back gives the mask, when it fits. */
  lemma ControlMaskOfLeBytes(v: uint64, n: nat)
    requires v < Pow256(n)
    ensures ControlMask(LeBytes(v, n)) == v
  {
    LeValueOfLeBytes(v, n);
  }
}

=== FILE: common.dfy ===
/**
  Results and options shared by the whole model, and the error codes the
  parser and the device functions return.
 */
module Common {

  datatype Option<+T> = None | Some(value: T)

  /**
    The error codes this core returns. Five are the library's own; Transport
    carries any other code the transport library reports (an access or busy
    failure, say), which the device functions pass on unchanged; Malformed is
    not a code of the library at all: the model returns it for a length
    byte of 0 or one that runs past the region, and wherever the library's own
    code would read outside a descriptor or dereference a missing entity. The
    library's behaviour is not undefined in all of these cases: on a bad length
    byte it first parses the block, and when that parse fails it stops with
    the parser's error, which Malformed then replaces.
   */
  datatype Error =
    | Io
    | NoDevice
    | NoMem
    | InvalidDevice
    | NotSupported
    | Transport(code: int)
    | Malformed

  datatype Result<+T> = Ok(value: T) | Err(error: Error)

  /** The position of the first element of s that satisfies p, if any. */
  function FirstIndex<T>(s: seq<T>, p: T -> bool): (r: Option<nat>)
    ensures r.Some? ==> r.value < |s| && p(s[r.value])
    ensures r.Some? ==> forall j :: 0 <= j < r.value ==> !p(s[j])
    ensures r.None? <==> forall j :: 0 <= j < |s| ==> !p(s[j])
  {
    if |s| == 0 then None
    else if p(s[0]) then Some(0)
    else match FirstIndex(s[1..], p)
      case None => None
      case Some(k) => Some(k + 1)
  }
}

=== FILE: control.dfy ===
/**
  The VideoControl side of the descriptor parser: the header, which drives
  one streaming scan per interface it declares, the camera input terminal,
  the processing and extension units, the per-block dispatch, and the
  control scan that builds a device's DeviceInfo (src/device.c:213-238,
  561-761).

  Every sub-parser reads only inside the block its length byte delimits; a
  block too short for the fields the parser reads is Malformed.
 */
module ControlParser {
  import opened Bytes
  import opened Common
  import opened UvcModel
  import DescriptorScan
  import StreamingParser

  // ---------------------------------------------------------------------
  // Helpers: appending one entity, and what parsing may do to a tree.
  // ---------------------------------------------------------------------

  function WithVersion(info: DeviceInfo, version: uint16): DeviceInfo
  {
    info.(ctrl := info.ctrl.(bcdUVC := version))
  }

  function WithTerminal(info: DeviceInfo, t: InputTerminal): DeviceInfo
  {
    info.(ctrl := info.ctrl.(inputTerminals := info.ctrl.inputTerminals + [t]))
  }

  function WithProcessingUnit(info: DeviceInfo, u: ProcessingUnit): DeviceInfo
  {
    info.(ctrl := info.ctrl.(processingUnits := info.ctrl.processingUnits + [u]))
  }

  function WithExtensionUnit(info: DeviceInfo, u: ExtensionUnit): DeviceInfo
  {
    info.(ctrl := info.ctrl.(extensionUnits := info.ctrl.extensionUnits + [u]))
  }

  /**
    b grows out of a: every collection of a is a prefix of b's, and the
    status endpoint is the same. Parsing only ever appends.
   */
  ghost predicate Extends(a: DeviceInfo, b: DeviceInfo)
  {
    && a.ctrl.statusEndpoint == b.ctrl.statusEndpoint
    && a.ctrl.inputTerminals <= b.ctrl.inputTerminals
    && a.ctrl.processingUnits <= b.ctrl.processingUnits
    && a.ctrl.extensionUnits <= b.ctrl.extensionUnits
    && a.streams <= b.streams
  }

  /**
    What every tree the parser builds satisfies: its version is a supported
    one (or 0 when no header was seen), it holds only camera terminals, and
    every discrete interval list ends with its 0 terminator.
   */
  ghost predicate WellFormedInfo(info: DeviceInfo)
  {
    && (info.ctrl.bcdUVC == 0 || SupportedVersion(info.ctrl.bcdUVC))
    && (forall t :: t in info.ctrl.inputTerminals ==> t.terminalType == ITT_CAMERA)
    && (forall si :: si in info.streams ==> WellFormedStream(si))
  }

  // ---------------------------------------------------------------------
  // Header (UVC 1.1, section 3.7.2).
  // ---------------------------------------------------------------------

  /** The interface numbers the header lists: every byte from offset 12 to the end of the block. */
  function DeclaredInterfaces(block: seq<byte>): seq<byte>
  {
    if |block| > 12 then block[12..] else []
  }

  /** Position k of idxs holds the first interface whose streaming scan fails. */
  ghost predicate FirstFailureAt(config: Config, idxs: seq<byte>, k: int)
  {
    && 0 <= k < |idxs|
    && StreamingParser.InterfaceScan(config, idxs[k]).Err?
    && forall j :: 0 <= j < k ==> StreamingParser.InterfaceScan(config, idxs[j]).Ok?
  }

  /**
    r is what scanning the interfaces idxs, in order, makes of info: it
    succeeds exactly when every interface's own scan does, appending their
    records in order and changing nothing else; otherwise it carries the
    error of the first scan that fails.
   */
  ghost predicate ScansInterfaces(config: Config, info: DeviceInfo, idxs: seq<byte>, r: Result<DeviceInfo>)
  {
    && (r.Ok? <==> forall k :: 0 <= k < |idxs| ==> StreamingParser.InterfaceScan(config, idxs[k]).Ok?)
    && (r.Ok? ==>
          && r.value.ctrl == info.ctrl
          && |r.value.streams| == |info.streams| + |idxs|
          && r.value.streams[..|info.streams|] == info.streams
          && forall k :: 0 <= k < |idxs| ==>
               r.value.streams[|info.streams| + k] == StreamingParser.InterfaceScan(config, idxs[k]).value)
    && (r.Err? ==> exists k :: FirstFailureAt(config, idxs, k) && r.error == StreamingParser.InterfaceScan(config, idxs[k]).error)
  }

  /**
    One streaming scan per index, in order; the first failing scan ends the
    loop with its error.
   */
  function ScanInterfaces(config: Config, info: DeviceInfo, idxs: seq<byte>): (r: Result<DeviceInfo>)
    ensures ScansInterfaces(config, info, idxs, r)
    decreases |idxs|
  {
    if |idxs| == 0 then
      assert info.streams[..|info.streams|] == info.streams;
      Ok(info)
    else
      match StreamingParser.ScanStreaming(config, info, idxs[0])
      case Err(e) =>
        assert FirstFailureAt(config, idxs, 0);
        Err(e)
      case Ok(next) =>
        var r := ScanInterfaces(config, next, idxs[1..]);
        ScansInterfacesCons(config, info, next, idxs, r);
        r
  }

  /** Scanning the first interface and then the rest is scanning them all. */
  lemma ScansInterfacesCons(config: Config, info: DeviceInfo, next: DeviceInfo, idxs: seq<byte>, r: Result<DeviceInfo>)
    requires |idxs| > 0 && StreamingParser.ScanStreaming(config, info, idxs[0]) == Ok(next)
    requires ScansInterfaces(config, next, idxs[1..], r)
    ensures ScansInterfaces(config, info, idxs, r)
  {
    assert forall k :: 1 <= k < |idxs| ==> idxs[k] == idxs[1..][k - 1];
    if r.Ok? {
      assert r.value.streams[..|info.streams|] == next.streams[..|info.streams|];
      assert r.value.streams[|info.streams|] == next.streams[|info.streams|];
    } else {
      var k :| FirstFailureAt(config, idxs[1..], k) && r.error == StreamingParser.InterfaceScan(config, idxs[1..][k]).error;
      assert FirstFailureAt(config, idxs, k + 1);
    }
  }

  /**
    What the interface scans append: an index past the configuration fails
    the header, and each appended record carries its interface's number and
    is well formed.
   */
  lemma ScannedRecords(config: Config, info: DeviceInfo, idxs: seq<byte>, r: Result<DeviceInfo>)
    requires ScansInterfaces(config, info, idxs, r)
    ensures (exists k :: 0 <= k < |idxs| && idxs[k] >= |config|) ==> r.Err?
    ensures r.Ok? ==> forall k :: 0 <= k < |idxs| ==>
      idxs[k] < |config| && r.value.streams[|info.streams| + k].interfaceNumber == config[idxs[k]].first.interfaceNumber
    ensures r.Ok? && (forall si :: si in info.streams ==> WellFormedStream(si)) ==>
      forall si :: si in r.value.streams ==> WellFormedStream(si)
  {
    if r.Ok? && (forall si :: si in info.streams ==> WellFormedStream(si)) {
      forall si | si in r.value.streams
        ensures WellFormedStream(si)
      {
        var j :| 0 <= j < |r.value.streams| && r.value.streams[j] == si;
        if j < |info.streams| {
          assert si == r.value.streams[..|info.streams|][j];
        } else {
          assert si == StreamingParser.InterfaceScan(config, idxs[j - |info.streams|]).value;
        }
      }
    }
  }

  /**
    The header: bcdUVC at offset 3 must be 1.0, 1.0a or 1.1, else the device
    is NotSupported and no streaming interface is scanned. Otherwise the
    version is recorded and each interface number listed from offset 12 on
    triggers one streaming scan, in order.
   */
  function ParseVcHeader(config: Config, info: DeviceInfo, block: seq<byte>): (r: Result<DeviceInfo>)
    ensures |block| < 5 ==> r == Err(Malformed)
    ensures |block| >= 5 && !SupportedVersion(Le16(block, 3)) ==> r == Err(NotSupported)
    ensures |block| >= 5 && SupportedVersion(Le16(block, 3)) ==>
      ScansInterfaces(config, WithVersion(info, Le16(block, 3)), DeclaredInterfaces(block), r)
    ensures r.Ok? ==> |block| >= 5 && SupportedVersion(Le16(block, 3))
  {
    if |block| < 5 then Err(Malformed)
    else
      var version := Le16(block, 3);
      if !SupportedVersion(version) then Err(NotSupported)
      else
        var start := WithVersion(info, version);
        var declared := DeclaredInterfaces(block);
        var r := ScanInterfaces(config, start, declared);
        assert ScansInterfaces(config, start, declared, r);
        assert start.streams == info.streams;
        r
  }

  /** A 12-byte header for version bcd listing ifaces, with its other fields zero. */
  function EncodeHeader(bcd: uint16, ifaces: seq<byte>): (block: seq<byte>)
    requires |ifaces| <= 243
    ensures |block| == 12 + |ifaces| && block[0] == |block|
    ensures block[1] == CS_INTERFACE && block[2] == VC_HEADER
  {
    [12 + |ifaces|, CS_INTERFACE, VC_HEADER] + LeBytes(bcd, 2) + [0, 0, 0, 0, 0, 0, |ifaces|] + ifaces
  }

  /** An encoded header reads back its version and its interface list. */
  lemma HeaderRoundTrip(bcd: uint16, ifaces: seq<byte>)
    requires |ifaces| <= 243
    ensures Le16(EncodeHeader(bcd, ifaces), 3) == bcd
    ensures DeclaredInterfaces(EncodeHeader(bcd, ifaces)) == ifaces
  {
    var block := EncodeHeader(bcd, ifaces);
    assert block[3..5] == LeBytes(bcd, 2);
    Le16OfLeBytes(bcd);
    assert LeBytes(bcd, 2)[0..2] == LeBytes(bcd, 2);
    assert block[12..] == ifaces;
  }

  /** A supported header that lists no streaming interface records its version and nothing else. */
  lemma EmptyHeaderRecordsVersion(config: Config, info: DeviceInfo, bcd: uint16)
    requires SupportedVersion(bcd)
    ensures ParseVcHeader(config, info, EncodeHeader(bcd, [])) == Ok(info.(ctrl := info.ctrl.(bcdUVC := bcd)))
  {
    HeaderRoundTrip(bcd, []);
  }

  // ---------------------------------------------------------------------
  // Camera input terminal (UVC 1.1, sections 3.7.2.1 and 3.7.2.3).
  // ---------------------------------------------------------------------

  /** t is the camera terminal the block describes; its control mask comes from the bControlSize bytes after offset 14. */
  ghost predicate DescribesTerminal(block: seq<byte>, t: InputTerminal)
  {
    && |block| >= 15
    && |block| >= 15 + block[14] as int
    && t.terminalId == block[3]
    && t.terminalType == Le16(block, 4)
    && t.objectiveFocalLengthMin == Le16(block, 8)
    && t.objectiveFocalLengthMax == Le16(block, 10)
    && t.ocularFocalLength == Le16(block, 12)
    && t.controls == LeValue(block[15..15 + block[14] as int]) % TWO_64
  }

  /**
    A terminal whose wTerminalType is not the camera type is dropped without
    error (the library returns an unspecified value there; the model reads it
    as success). A camera terminal is appended to the terminals.
   */
  function ParseInputTerminal(info: DeviceInfo, block: seq<byte>): (r: Result<DeviceInfo>)
    ensures |block| < 6 ==> r == Err(Malformed)
    ensures |block| >= 6 && Le16(block, 4) != ITT_CAMERA ==> r == Ok(info)
    ensures r.Ok? <==> |block| >= 6 && (Le16(block, 4) != ITT_CAMERA || (|block| >= 15 && |block| >= 15 + block[14] as int))
    ensures r.Err? ==> r.error == Malformed
    ensures r.Ok? && Le16(block, 4) == ITT_CAMERA ==>
      var n := |info.ctrl.inputTerminals|;
      && |r.value.ctrl.inputTerminals| == n + 1
      && r.value == WithTerminal(info, r.value.ctrl.inputTerminals[n])
      && DescribesTerminal(block, r.value.ctrl.inputTerminals[n])
  {
    if |block| < 6 then Err(Malformed)
    else if Le16(block, 4) != ITT_CAMERA then Ok(info)
    else if |block| < 15 || |block| < 15 + block[14] as int then Err(Malformed)
    else
      var t := InputTerminal(block[3], Le16(block, 4), Le16(block, 8), Le16(block, 10), Le16(block, 12),
                             ControlMask(block[15..15 + block[14] as int]));
      Ok(WithTerminal(info, t))
  }

  /** The block of a camera terminal whose controls are written in n bytes. */
  function EncodeCameraTerminal(t: InputTerminal, n: nat): (block: seq<byte>)
    requires n <= 240
    ensures |block| == 15 + n && block[0] == |block|
    ensures block[1] == CS_INTERFACE && block[2] == VC_INPUT_TERMINAL
  {
    TerminalHead(t, n) + LeBytes(t.controls, n)
  }

  /** Bytes 0 to 14 of a camera terminal block: everything before the control bytes. */
  function TerminalHead(t: InputTerminal, n: nat): (head: seq<byte>)
    requires n <= 240
    ensures |head| == 15
  {
    [15 + n, CS_INTERFACE, VC_INPUT_TERMINAL, t.terminalId] + LeBytes(ITT_CAMERA, 2) + [0, 0]
      + LeBytes(t.objectiveFocalLengthMin, 2) + LeBytes(t.objectiveFocalLengthMax, 2)
      + LeBytes(t.ocularFocalLength, 2) + [n]
  }

  lemma TerminalHeadFields(t: InputTerminal, n: nat)
    requires n <= 240
    ensures var h := TerminalHead(t, n);
      && h[3] == t.terminalId && h[14] == n
      && Le16(h, 4) == ITT_CAMERA && Le16(h, 8) == t.objectiveFocalLengthMin
      && Le16(h, 10) == t.objectiveFocalLengthMax && Le16(h, 12) == t.ocularFocalLength
  {
    var h := TerminalHead(t, n);
    assert h[4..6] == LeBytes(ITT_CAMERA, 2);
    assert h[8..10] == LeBytes(t.objectiveFocalLengthMin, 2);
    assert h[10..12] == LeBytes(t.objectiveFocalLengthMax, 2);
    assert h[12..14] == LeBytes(t.ocularFocalLength, 2);
    ShortAt(h, 4, ITT_CAMERA);
    ShortAt(h, 8, t.objectiveFocalLengthMin);
    ShortAt(h, 10, t.objectiveFocalLengthMax);
    ShortAt(h, 12, t.ocularFocalLength);
  }

  /** A 16-bit field inside a prefix reads the same after anything is appended. */
  lemma Le16OfPrefix(a: seq<byte>, b: seq<byte>, i: nat)
    requires i + 2 <= |a|
    ensures Le16(a + b, i) == Le16(a, i)
  {
    assert (a + b)[i..i + 2] == a[i..i + 2];
  }

  /** A 16-bit field written with LeBytes at offset at reads back. */
  lemma ShortAt(s: seq<byte>, at: nat, v: uint16)
    requires at + 2 <= |s| && s[at..at + 2] == LeBytes(v, 2)
    ensures Le16(s, at) == v
  {
    Le16OfLeBytes(v);
    assert LeBytes(v, 2)[0..2] == LeBytes(v, 2);
  }

  /** Parsing an encoded camera terminal appends exactly that terminal. */
  lemma CameraTerminalRoundTrip(info: DeviceInfo, t: InputTerminal, n: nat)
    requires n <= 240 && t.terminalType == ITT_CAMERA && t.controls < Pow256(n)
    ensures ParseInputTerminal(info, EncodeCameraTerminal(t, n)) == Ok(WithTerminal(info, t))
  {
    var block := EncodeCameraTerminal(t, n);
    CameraTerminalEncodingDescribes(t, n);
    var r := ParseInputTerminal(info, block);
    var k := |info.ctrl.inputTerminals|;
    DescribedTerminalIsUnique(block, t, r.value.ctrl.inputTerminals[k]);
  }

  /** A block describes at most one terminal. */
  lemma DescribedTerminalIsUnique(block: seq<byte>, a: InputTerminal, b: InputTerminal)
    requires DescribesTerminal(block, a) && DescribesTerminal(block, b)
    ensures a == b
  {
  }

  /** An encoded camera terminal is described, field by field, by the terminal it encodes. */
  lemma CameraTerminalEncodingDescribes(t: InputTerminal, n: nat)
    requires n <= 240 && t.terminalType == ITT_CAMERA && t.controls < Pow256(n)
    ensures DescribesTerminal(EncodeCameraTerminal(t, n), t)
  {
    var head := TerminalHead(t, n);
    var block := head + LeBytes(t.controls, n);
    TerminalHeadFields(t, n);
    Le16OfPrefix(head, LeBytes(t.controls, n), 4);
    Le16OfPrefix(head, LeBytes(t.controls, n), 8);
    Le16OfPrefix(head, LeBytes(t.controls, n), 10);
    Le16OfPrefix(head, LeBytes(t.controls, n), 12);
    assert block[14] == n && block[3] == t.terminalId;
    assert block[15..15 + n] == LeBytes(t.controls, n);
    ControlMaskOfLeBytes(t.controls, n);
  }

  // ---------------------------------------------------------------------
  // Processing unit (UVC 1.1, section 3.7.2.5).
  // ---------------------------------------------------------------------

  /** u is the processing unit the block describes; its control mask comes from the bControlSize bytes after offset 7. */
  ghost predicate DescribesProcessingUnit(block: seq<byte>, u: ProcessingUnit)
  {
    && |block| >= 8
    && |block| >= 8 + block[7] as int
    && u.unitId == block[3]
    && u.sourceId == block[4]
    && u.controls == LeValue(block[8..8 + block[7] as int]) % TWO_64
  }

  /** Appends the processing unit the block describes. */
  function ParseProcessingUnit(info: DeviceInfo, block: seq<byte>): (r: Result<DeviceInfo>)
    ensures r.Ok? <==> |block| >= 8 && |block| >= 8 + block[7] as int
    ensures r.Err? ==> r.error == Malformed
    ensures r.Ok? ==>
      var n := |info.ctrl.processingUnits|;
      && |r.value.ctrl.processingUnits| == n + 1
      && r.value == WithProcessingUnit(info, r.value.ctrl.processingUnits[n])
      && DescribesProcessingUnit(block, r.value.ctrl.processingUnits[n])
  {
    if |block| < 8 || |block| < 8 + block[7] as int then Err(Malformed)
    else
      var u := ProcessingUnit(block[3], block[4], ControlMask(block[8..8 + block[7] as int]));
      Ok(WithProcessingUnit(info, u))
  }

  /** The block of a processing unit whose controls are written in n bytes. */
  function EncodeProcessingUnit(u: ProcessingUnit, n: nat): (block: seq<byte>)
    requires n <= 246
    ensures |block| == 9 + n && block[0] == |block|
    ensures block[1] == CS_INTERFACE && block[2] == VC_PROCESSING_UNIT
  {
    [9 + n, CS_INTERFACE, VC_PROCESSING_UNIT, u.unitId, u.sourceId, 0, 0, n] + LeBytes(u.controls, n) + [0]
  }

  /** Parsing an encoded processing unit appends exactly that unit. */
  lemma ProcessingUnitRoundTrip(info: DeviceInfo, u: ProcessingUnit, n: nat)
    requires n <= 246 && u.controls < Pow256(n)
    ensures ParseProcessingUnit(info, EncodeProcessingUnit(u, n)) == Ok(WithProcessingUnit(info, u))
  {
    var block := EncodeProcessingUnit(u, n);
    assert block[8..8 + n] == LeBytes(u.controls, n);
    ControlMaskOfLeBytes(u.controls, n);
  }

  // ---------------------------------------------------------------------
  // Extension unit (UVC 1.1, section 3.7.2.6).
  // ---------------------------------------------------------------------

  /**
    u is the extension unit the block describes: bNrInPins at offset 21
    counts the source IDs that follow, and the bControlSize byte comes after
    them, followed by the control bytes.
   */
  ghost predicate DescribesExtensionUnit(block: seq<byte>, u: ExtensionUnit)
  {
    && |block| >= 22
    && var pins := block[21] as int;
    && |block| >= 23 + pins
    && |block| >= 23 + pins + block[22 + pins] as int
    && u.unitId == block[3]
    && u.guidExtensionCode == block[4..20]
    && u.controls == LeValue(block[23 + pins..23 + pins + block[22 + pins] as int]) % TWO_64
  }

  /** Appends the extension unit the block describes. */
  function ParseExtensionUnit(info: DeviceInfo, block: seq<byte>): (r: Result<DeviceInfo>)
    ensures r.Ok? <==> (|block| >= 22 && |block| >= 23 + block[21] as int
                        && |block| >= 23 + block[21] as int + block[22 + block[21] as int] as int)
    ensures r.Err? ==> r.error == Malformed
    ensures r.Ok? ==>
      var n := |info.ctrl.extensionUnits|;
      && |r.value.ctrl.extensionUnits| == n + 1
      && r.value == WithExtensionUnit(info, r.value.ctrl.extensionUnits[n])
      && DescribesExtensionUnit(block, r.value.ctrl.extensionUnits[n])
  {
    if |block| < 22 then Err(Malformed)
    else
      var pins := block[21] as int;
      if |block| < 23 + pins then Err(Malformed)
      else
        var size := block[22 + pins] as int;
        if |block| < 23 + pins + size then Err(Malformed)
        else
          var u := ExtensionUnit(block[3], block[4..20], ControlMask(block[23 + pins..23 + pins + size]));
          Ok(WithExtensionUnit(info, u))
  }

  /** The block of an extension unit with the given source IDs and controls written in n bytes. */
  function EncodeExtensionUnit(u: ExtensionUnit, sources: seq<byte>, n: nat): (block: seq<byte>)
    requires |u.guidExtensionCode| == 16 && |sources| + n <= 231
    ensures |block| == 24 + |sources| + n && block[0] == |block|
    ensures block[1] == CS_INTERFACE && block[2] == VC_EXTENSION_UNIT
  {
    [24 + |sources| + n, CS_INTERFACE, VC_EXTENSION_UNIT, u.unitId] + u.guidExtensionCode
      + [0, |sources|] + sources + [n] + LeBytes(u.controls, n) + [0]
  }

  /** Parsing an encoded extension unit appends exactly that unit, whatever its input pins. */
  lemma ExtensionUnitRoundTrip(info: DeviceInfo, u: ExtensionUnit, sources: seq<byte>, n: nat)
    requires |u.guidExtensionCode| == 16 && |sources| + n <= 231 && u.controls < Pow256(n)
    ensures ParseExtensionUnit(info, EncodeExtensionUnit(u, sources, n)) == Ok(WithExtensionUnit(info, u))
  {
    var block := EncodeExtensionUnit(u, sources, n);
    var p := |sources|;
    assert block[4..20] == u.guidExtensionCode;
    assert block[21] == p;
    assert block[22 + p] == n;
    assert block[23 + p..23 + p + n] == LeBytes(u.controls, n);
    ControlMaskOfLeBytes(u.controls, n);
  }

  // ---------------------------------------------------------------------
  // Dispatch and the control scan.
  // ---------------------------------------------------------------------

  /**
    One VideoControl block. A block that is not a class-specific interface
    descriptor (byte 1 is not 36) is skipped without error. Otherwise the
    subtype (byte 2) selects the sub-parser; output terminals and selector
    units are skipped, and an unknown subtype is InvalidDevice.
   */
  function ParseVc(config: Config, info: DeviceInfo, block: seq<byte>): (r: Result<DeviceInfo>)
    ensures |block| < 2 ==> r == Err(Malformed)
    ensures |block| >= 2 && block[1] != CS_INTERFACE ==> r == Ok(info)
    ensures |block| == 2 && block[1] == CS_INTERFACE ==> r == Err(Malformed)
    ensures |block| >= 3 && block[1] == CS_INTERFACE && block[2] in {VC_OUTPUT_TERMINAL, VC_SELECTOR_UNIT} ==> r == Ok(info)
    ensures |block| >= 3 && block[1] == CS_INTERFACE && (block[2] < VC_HEADER || block[2] > VC_EXTENSION_UNIT) ==>
      r == Err(InvalidDevice)
    ensures r.Ok? ==> Extends(info, r.value)
    ensures |block| >= 3 && block[1] == CS_INTERFACE && block[2] == VC_HEADER ==> r == ParseVcHeader(config, info, block)
    ensures |block| >= 3 && block[1] == CS_INTERFACE && block[2] == VC_INPUT_TERMINAL ==> r == ParseInputTerminal(info, block)
    ensures |block| >= 3 && block[1] == CS_INTERFACE && block[2] == VC_PROCESSING_UNIT ==> r == ParseProcessingUnit(info, block)
    ensures |block| >= 3 && block[1] == CS_INTERFACE && block[2] == VC_EXTENSION_UNIT ==> r == ParseExtensionUnit(info, block)
  {
    if |block| < 2 then Err(Malformed)
    else if block[1] != CS_INTERFACE then Ok(info)
    else if |block| < 3 then Err(Malformed)
    else
      var subtype := block[2];
      if subtype == VC_HEADER then ParseVcHeader(config, info, block)
      else if subtype == VC_INPUT_TERMINAL then ParseInputTerminal(info, block)
      else if subtype == VC_OUTPUT_TERMINAL || subtype == VC_SELECTOR_UNIT then Ok(info)
      else if subtype == VC_PROCESSING_UNIT then ParseProcessingUnit(info, block)
      else if subtype == VC_EXTENSION_UNIT then ParseExtensionUnit(info, block)
      else Err(InvalidDevice)
  }

  /** Parsing one block keeps the tree well formed. */
  lemma ParseVcKeepsWellFormed(config: Config, info: DeviceInfo, block: seq<byte>)
    requires WellFormedInfo(info)
    ensures ParseVc(config, info, block).Ok? ==> WellFormedInfo(ParseVc(config, info, block).value)
  {
    var r := ParseVc(config, info, block);
    if r.Ok? && |block| >= 3 && block[1] == CS_INTERFACE {
      if block[2] == VC_HEADER {
        ScannedRecords(config, WithVersion(info, Le16(block, 3)), DeclaredInterfaces(block), r);
      } else if block[2] == VC_INPUT_TERMINAL && Le16(block, 4) == ITT_CAMERA {
        var n := |info.ctrl.inputTerminals|;
        assert forall t :: t in r.value.ctrl.inputTerminals ==> t in info.ctrl.inputTerminals || t == r.value.ctrl.inputTerminals[n];
      }
    }
  }

  /** The interface the control scan reads: the first whose first alternate setting is VideoControl. */
  function ControlIndex(config: Config): Option<nat>
  {
    FirstIndex(config, (i: Interface) => IsVideoControl(i.first))
  }

  /** The status endpoint recorded for a VideoControl interface: its first endpoint, or 0 if it has none. */
  function StatusEndpointOf(alt: AltSetting): byte
  {
    if alt.firstEndpoint.Some? then alt.firstEndpoint.value else 0
  }

  /**
    The control scan: finds the VideoControl interface (none is
    InvalidDevice), records its status endpoint, and scans its class-specific
    bytes with ParseVc.
   */
  function ScanControl(config: Config): (r: Result<DeviceInfo>)
    ensures (forall k :: 0 <= k < |config| ==> !IsVideoControl(config[k].first)) ==> r == Err(InvalidDevice)
    ensures ControlIndex(config).Some? ==>
      var alt := config[ControlIndex(config).value].first;
      r == DescriptorScan.Scan(alt.extra, EmptyInfo(StatusEndpointOf(alt)), VcStep(config))
    ensures r.Ok? ==> ControlIndex(config).Some?
    ensures r.Ok? ==> r.value.ctrl.statusEndpoint == StatusEndpointOf(config[ControlIndex(config).value].first)
    ensures r.Ok? ==> WellFormedInfo(r.value)
  {
    match ControlIndex(config)
    case None => Err(InvalidDevice)
    case Some(k) =>
      var alt := config[k].first;
      var start := EmptyInfo(StatusEndpointOf(alt));
      var inv := (info: DeviceInfo) => WellFormedInfo(info) && info.ctrl.statusEndpoint == StatusEndpointOf(alt);
      ScanControlKeeps(config, StatusEndpointOf(alt));
      DescriptorScan.ScanPreserves(alt.extra, start, VcStep(config), inv);
      DescriptorScan.Scan(alt.extra, start, VcStep(config))
  }

  /**
    The bytes [0, 0, 0] at the start of the VideoControl interface's bytes:
    the library's dispatcher accepts them (byte 1 is not 36) and its loop's
    cursor does not move, so the control scan as written never ends. The
    corrected scan rejects them.
   */
  lemma ZeroLengthControlBlockSpins(config: Config, info: DeviceInfo)
    ensures ParseVc(config, info, [0, 0, 0]) == Ok(info)
    ensures var c := DescriptorScan.Cursor(0, 3);
      DescriptorScan.StepAsWritten([0, 0, 0], c) == c && c.left >= 3
    ensures DescriptorScan.Scan([0, 0, 0], info, VcStep(config)) == Err(Malformed)
  {
  }

  /**
    On a zero or overlong length byte the library still parses the block
    first, and a failing parse ends its loop with the parser's error. The
    model rejects the length byte before parsing, so Malformed replaces that
    error.
   */
  lemma BadLengthReplacesParserError(config: Config, info: DeviceInfo)
    ensures ParseVc(config, info, [0, 36, 7]) == Err(InvalidDevice)
    ensures ParseVc(config, info, [9, 36, 7]) == Err(InvalidDevice)
    ensures DescriptorScan.Scan([0, 36, 7], info, VcStep(config)) == Err(Malformed)
    ensures DescriptorScan.Scan([9, 36, 7], info, VcStep(config)) == Err(Malformed)
  {
  }

  /** The per-block step of the control scan. */
  function VcStep(config: Config): (DeviceInfo, seq<byte>) -> Result<DeviceInfo>
  {
    (info: DeviceInfo, block: seq<byte>) => ParseVc(config, info, block)
  }

  /** Every VideoControl block keeps the tree well formed and its status endpoint unchanged. */
  lemma ScanControlKeeps(config: Config, ep: byte)
    ensures forall t, b :: WellFormedInfo(t) && t.ctrl.statusEndpoint == ep && VcStep(config)(t, b).Ok? ==>
      WellFormedInfo(VcStep(config)(t, b).value) && VcStep(config)(t, b).value.ctrl.statusEndpoint == ep
  {
    forall t, b | WellFormedInfo(t) && t.ctrl.statusEndpoint == ep && VcStep(config)(t, b).Ok?
      ensures WellFormedInfo(VcStep(config)(t, b).value) && VcStep(config)(t, b).value.ctrl.statusEndpoint == ep
    {
      ParseVcKeepsWellFormed(config, t, b);
    }
  }

  /**
    Builds a device's DeviceInfo from configuration 0. The record's
    allocation may fail (NoMem), and the transport may be unable to fetch the
    configuration (Io); otherwise the result is the control scan's.
   */
  function GetDeviceInfo(recordAllocated: bool, config: Option<Config>): (r: Result<DeviceInfo>)
    ensures !recordAllocated ==> r == Err(NoMem)
    ensures recordAllocated && config.None? ==> r == Err(Io)
    ensures recordAllocated && config.Some? ==> r == ScanControl(config.value)
    ensures r.Ok? ==> recordAllocated && config.Some? && WellFormedInfo(r.value)
  {
    if !recordAllocated then Err(NoMem)
    else
      match config
      case None => Err(Io)
      case Some(c) => ScanControl(c)
  }
}

=== FILE: devices.dfy ===
/**
  Device enumeration, lookup, reference counting, and the effect of opening
  and closing a device on its reference count and on the context's list of
  open handles (src/device.c:63-202, 372-502, 951-979).

  The transport library is represented by the data it answers with: each
  USB device carries configuration 0 and its device descriptor, either of
  which may be absent when the transport fails to fetch it, and the
  transport's open, interface claim, transfer allocation and submission
  steps are given as outcomes.
 */
module Devices {
  import opened Bytes
  import opened Common
  import opened UvcModel
  import ControlParser

  /** What the device descriptor lookup yields; serialNumber is absent when the string could not be read. */
  datatype DeviceDescriptor = DeviceDescriptor(idVendor: uint16, idProduct: uint16, serialNumber: Option<string>)

  /** A USB device as the transport presents it; id stands for the device's identity. */
  datatype UsbDevice = UsbDevice(id: nat, config: Option<Config>, descriptor: Option<DeviceDescriptor>)

  /** A UVC device record and its reference count. */
  datatype Device = Device(usb: UsbDevice, refs: nat)

  // ---------------------------------------------------------------------
  // Reference counting.
  // ---------------------------------------------------------------------

  function RefDevice(d: Device): (r: Device)
    ensures r.usb == d.usb && r.refs == d.refs + 1
  {
    d.(refs := d.refs + 1)
  }

  /** Drops one reference; the record is discarded (None) when the last one goes. */
  function UnrefDevice(d: Device): (r: Option<Device>)
    requires d.refs >= 1
    ensures r.None? <==> d.refs == 1
    ensures r.Some? ==> r.value.usb == d.usb && r.value.refs == d.refs - 1
  {
    if d.refs == 1 then None else Some(d.(refs := d.refs - 1))
  }

  /** Unreferencing undoes referencing. */
  lemma UnrefUndoesRef(d: Device)
    ensures UnrefDevice(RefDevice(d)) == Some(d) <==> d.refs >= 1
    ensures d.refs == 0 ==> UnrefDevice(RefDevice(d)).None?
  {
  }

  // ---------------------------------------------------------------------
  // Enumeration.
  // ---------------------------------------------------------------------

  /** Every alternate setting of an interface. */
  function AltSettings(i: Interface): seq<AltSetting>
  {
    [i.first] + i.others
  }

  /** A configuration is a UVC device's when some alternate setting of some interface is VideoStreaming. */
  ghost predicate DeclaresStreaming(config: Config)
  {
    exists k, a :: 0 <= k < |config| && a in AltSettings(config[k]) && IsVideoStreaming(a)
  }

  /** The capability test: walks interfaces and their alternate settings until a VideoStreaming one is found. */
  method HasStreamingInterface(config: Config) returns (found: bool)
    ensures found <==> DeclaresStreaming(config)
  {
    found := false;
    var k := 0;
    while !found && k < |config|
      invariant 0 <= k <= |config|
      invariant found ==> DeclaresStreaming(config)
      invariant !found ==> forall j, a :: 0 <= j < k && a in AltSettings(config[j]) ==> !IsVideoStreaming(a)
    {
      var alts := AltSettings(config[k]);
      var m := 0;
      while !found && m < |alts|
        invariant 0 <= m <= |alts|
        invariant found ==> DeclaresStreaming(config)
        invariant !found ==> forall j :: 0 <= j < m ==> !IsVideoStreaming(alts[j])
      {
        if IsVideoStreaming(alts[m]) {
          found := true;
        }
        m := m + 1;
      }
      k := k + 1;
    }
  }

  /** A USB device is listed as a UVC device when its configuration can be read and declares VideoStreaming. */
  ghost predicate IsUvcDevice(u: UsbDevice)
  {
    u.config.Some? && DeclaresStreaming(u.config.value)
  }

  /** The reference listing: the UVC devices in transport order, each with the list's one reference. */
  ghost function UvcDevices(usbDevs: seq<UsbDevice>): seq<Device>
  {
    if |usbDevs| == 0 then []
    else (if IsUvcDevice(usbDevs[0]) then [Device(usbDevs[0], 1)] else []) + UvcDevices(usbDevs[1..])
  }

  lemma {:induction false} UvcDevicesSnoc(usbDevs: seq<UsbDevice>, u: UsbDevice)
    ensures UvcDevices(usbDevs + [u]) == UvcDevices(usbDevs) + (if IsUvcDevice(u) then [Device(u, 1)] else [])
    decreases |usbDevs|
  {
    if |usbDevs| == 0 {
      assert usbDevs + [u] == [u];
      assert [u][1..] == [];
    } else {
      var head := if IsUvcDevice(usbDevs[0]) then [Device(usbDevs[0], 1)] else [];
      var tail := if IsUvcDevice(u) then [Device(u, 1)] else [];
      assert (usbDevs + [u])[0] == usbDevs[0];
      assert (usbDevs + [u])[1..] == usbDevs[1..] + [u];
      UvcDevicesSnoc(usbDevs[1..], u);
      assert UvcDevices(usbDevs + [u]) == head + (UvcDevices(usbDevs[1..]) + tail);
      assert UvcDevices(usbDevs) == head + UvcDevices(usbDevs[1..]);
    }
  }

  /** The listing holds exactly the UVC devices, each once referenced. */
  lemma {:induction false} UvcDevicesMembership(usbDevs: seq<UsbDevice>, d: Device)
    ensures d in UvcDevices(usbDevs) <==> d.usb in usbDevs && IsUvcDevice(d.usb) && d.refs == 1
    decreases |usbDevs|
  {
    if |usbDevs| > 0 {
      UvcDevicesMembership(usbDevs[1..], d);
      assert usbDevs == [usbDevs[0]] + usbDevs[1..];
    }
  }

  /**
    The device list. A negative device count from the transport is an Io
    error; otherwise every USB device whose configuration declares a
    VideoStreaming interface is listed, in order, with one reference.
   */
  method GetDeviceList(count: int, usbDevs: seq<UsbDevice>) returns (r: Result<seq<Device>>)
    ensures count < 0 ==> r == Err(Io)
    ensures count >= 0 ==> r == Ok(UvcDevices(usbDevs))
  {
    if count < 0 {
      return Err(Io);
    }
    var list: seq<Device> := [];
    var i := 0;
    while i < |usbDevs|
      invariant 0 <= i <= |usbDevs|
      invariant list == UvcDevices(usbDevs[..i])
    {
      var u := usbDevs[i];
      var uvc := false;
      if u.config.Some? {
        uvc := HasStreamingInterface(u.config.value);
      }
      UvcDevicesSnoc(usbDevs[..i], u);
      assert usbDevs[..i + 1] == usbDevs[..i] + [u];
      if uvc {
        list := list + [Device(u, 1)];
      }
      i := i + 1;
    }
    assert usbDevs[..i] == usbDevs;
    return Ok(list);
  }

  /**
    The library's test for a failed listing as written: the count is stored
    in an unsigned size_t, so a negative count becomes a huge one and the
    test for a negative value never fires.
   */
  predicate ListingFailureDetectedAsWritten(count: int)
  {
    (count % TWO_64) < 0
  }

  /** The transport's Io error, -1, passes the check as written; the corrected listing returns Io for it. */
  lemma NegativeCountGoesUnnoticed()
    ensures !ListingFailureDetectedAsWritten(-1)
    ensures forall count: int :: !ListingFailureDetectedAsWritten(count)
  {
  }

  // ---------------------------------------------------------------------
  // Lookup.
  // ---------------------------------------------------------------------

  /**
    Whether a device matches the filters: a vendor or product of 0 and an
    absent serial number match anything; a device whose descriptor cannot
    be read matches nothing, and a serial filter needs the device's serial
    number to be readable and equal.
   */
  predicate Matches(u: UsbDevice, vid: int, pid: int, sn: Option<string>)
  {
    && u.descriptor.Some?
    && (vid == 0 || u.descriptor.value.idVendor == vid)
    && (pid == 0 || u.descriptor.value.idProduct == pid)
    && (sn.None? || u.descriptor.value.serialNumber == sn)
  }

  /**
    Finds the first listed UVC device that matches. The match gains a
    reference for the caller before the list, and its reference, is
    dropped: the caller gets it with one reference. No match is NoDevice.
   */
  method FindDevice(count: int, usbDevs: seq<UsbDevice>, vid: int, pid: int, sn: Option<string>)
    returns (r: Result<Device>)
    ensures count < 0 ==> r == Err(Io)
    ensures count >= 0 && (forall d :: d in UvcDevices(usbDevs) ==> !Matches(d.usb, vid, pid, sn)) ==> r == Err(NoDevice)
    ensures count >= 0 && (exists d :: d in UvcDevices(usbDevs) && Matches(d.usb, vid, pid, sn)) ==> r.Ok?
    ensures r.Ok? ==> r.value in UvcDevices(usbDevs) && Matches(r.value.usb, vid, pid, sn) && r.value.refs == 1
    ensures r.Ok? ==> exists k :: (0 <= k < |UvcDevices(usbDevs)| && UvcDevices(usbDevs)[k] == r.value
        && forall j :: 0 <= j < k ==> !Matches(UvcDevices(usbDevs)[j].usb, vid, pid, sn))
    ensures r.Err? ==> r.error in {Io, NoDevice}
  {
    var listed := GetDeviceList(count, usbDevs);
    if listed.Err? {
      return Err(listed.error);
    }
    var list := listed.value;
    var i := 0;
    while i < |list| && !Matches(list[i].usb, vid, pid, sn)
      invariant 0 <= i <= |list|
      invariant forall j :: 0 <= j < i ==> !Matches(list[j].usb, vid, pid, sn)
    {
      i := i + 1;
    }
    if i == |list| {
      return Err(NoDevice);
    }
    UvcDevicesMembership(usbDevs, list[i]);
    var found := RefDevice(list[i]);
    // Freeing the list drops the list's own reference.
    var kept := UnrefDevice(found);
    return Ok(kept.value);
  }

  // ---------------------------------------------------------------------
  // Open handles.
  // ---------------------------------------------------------------------

  /**
    An open handle: the USB device it belongs to, its parsed descriptors,
    whether it is an Apple iSight, and whether a status transfer was
    submitted for it.
   */
  datatype Handle = Handle(usbId: nat, info: DeviceInfo, isIsight: bool, statusArmed: bool)

  /** The handles open in one library context, in opening order. */
  datatype Context = Context(openHandles: seq<Handle>)

  ghost predicate IsOpen(ctx: Context, usbId: nat)
  {
    exists k :: 0 <= k < |ctx.openHandles| && ctx.openHandles[k].usbId == usbId
  }

  /** Whether a USB device already has an open handle in the context. */
  method AlreadyOpen(ctx: Context, usbId: nat) returns (r: bool)
    ensures r <==> IsOpen(ctx, usbId)
  {
    var k := 0;
    while k < |ctx.openHandles|
      invariant 0 <= k <= |ctx.openHandles|
      invariant forall j :: 0 <= j < k ==> ctx.openHandles[j].usbId != usbId
    {
      if ctx.openHandles[k].usbId == usbId {
        return true;
      }
      k := k + 1;
    }
    return false;
  }

  /** How many handles are open in the context. */
  method NumDevices(ctx: Context) returns (count: nat)
    ensures count == |ctx.openHandles|
  {
    count := 0;
    var rest := ctx.openHandles;
    while rest != []
      invariant count + |rest| == |ctx.openHandles|
    {
      count := count + 1;
      rest := rest[1..];
    }
  }

  /**
    The outcomes of the transport steps of opening a device: None for success,
    else the error the step reports, typically a Transport code.
   */
  datatype OpenSteps = OpenSteps(
    usbOpen: Option<Error>,
    infoAllocated: bool,
    claim: Option<Error>,
    transferAllocated: bool,
    submit: Option<Error>)

  /** The Apple iSight's vendor and product IDs. */
  predicate IsIsight(desc: Option<DeviceDescriptor>)
  {
    desc.Some? && desc.value.idVendor == 0x05ac && desc.value.idProduct == 0x8501
  }

  /** A context and the device record after an operation. */
  datatype Opened = Opened(ctx: Context, dev: Device)

  /**
    Opening a device: opens it on the transport, parses its descriptors,
    claims its interfaces and, when the VideoControl interface has a status
    endpoint, allocates and submits the status transfer (a failed
    allocation is NoMem). On success the handle is appended to the context
    and the device gains a reference; on failure the reference taken is
    dropped again and nothing changes.
   */
  function Open(ctx: Context, dev: Device, steps: OpenSteps): (r: Result<Opened>)
    requires dev.refs >= 1
    ensures r.Ok? <==>
      && steps.usbOpen.None?
      && ControlParser.GetDeviceInfo(steps.infoAllocated, dev.usb.config).Ok?
      && steps.claim.None?
      && (ControlParser.GetDeviceInfo(steps.infoAllocated, dev.usb.config).value.ctrl.statusEndpoint != 0 ==>
            steps.transferAllocated && steps.submit.None?)
    ensures r.Ok? ==>
      && r.value.dev == RefDevice(dev)
      && |r.value.ctx.openHandles| == |ctx.openHandles| + 1
      && r.value.ctx.openHandles[..|ctx.openHandles|] == ctx.openHandles
      && var h := r.value.ctx.openHandles[|ctx.openHandles|];
         && h.usbId == dev.usb.id
         && h.info == ControlParser.GetDeviceInfo(steps.infoAllocated, dev.usb.config).value
         && (h.statusArmed <==> h.info.ctrl.statusEndpoint != 0)
         && (h.isIsight <==> IsIsight(dev.usb.descriptor))
    ensures steps.usbOpen.Some? ==> r == Err(steps.usbOpen.value)
    ensures (&& steps.usbOpen.None? && ControlParser.GetDeviceInfo(steps.infoAllocated, dev.usb.config).Ok?
             && steps.claim.Some?) ==> r == Err(steps.claim.value)
    ensures (&& steps.usbOpen.None? && ControlParser.GetDeviceInfo(steps.infoAllocated, dev.usb.config).Ok?
             && steps.claim.None? && steps.transferAllocated && steps.submit.Some?
             && ControlParser.GetDeviceInfo(steps.infoAllocated, dev.usb.config).value.ctrl.statusEndpoint != 0)
            ==> r == Err(steps.submit.value)
    ensures (&& r.Err? && steps.usbOpen.None? && ControlParser.GetDeviceInfo(steps.infoAllocated, dev.usb.config).Ok?
             && steps.claim.None? && !steps.transferAllocated) ==> r == Err(NoMem)
  {
    if steps.usbOpen.Some? then Err(steps.usbOpen.value)
    else
      match ControlParser.GetDeviceInfo(steps.infoAllocated, dev.usb.config)
      case Err(e) => Err(e)
      case Ok(info) =>
        if steps.claim.Some? then Err(steps.claim.value)
        else
          var armed := info.ctrl.statusEndpoint != 0;
          if armed && !steps.transferAllocated then Err(NoMem)
          else if armed && steps.submit.Some? then Err(steps.submit.value)
          else
            var h := Handle(dev.usb.id, info, IsIsight(dev.usb.descriptor), armed);
            assert (ctx.openHandles + [h])[..|ctx.openHandles|] == ctx.openHandles;
            Ok(Opened(Context(ctx.openHandles + [h]), RefDevice(dev)))
  }

  /**
    Closing the handle at position k: it leaves the context's list and the
    device loses the handle's reference (None when that was the last one).
   */
  function Close(ctx: Context, dev: Device, k: nat): (r: (Context, Option<Device>))
    requires k < |ctx.openHandles| && ctx.openHandles[k].usbId == dev.usb.id && dev.refs >= 1
    ensures |r.0.openHandles| == |ctx.openHandles| - 1
    ensures forall j :: 0 <= j < |r.0.openHandles| ==>
      r.0.openHandles[j] == ctx.openHandles[if j < k then j else j + 1]
    ensures r.1 == UnrefDevice(dev)
  {
    (Context(ctx.openHandles[..k] + ctx.openHandles[k + 1..]), UnrefDevice(dev))
  }

  /** A successful open makes the device open in the context. */
  lemma OpenMakesOpen(ctx: Context, dev: Device, steps: OpenSteps)
    requires dev.refs >= 1 && Open(ctx, dev, steps).Ok?
    ensures IsOpen(Open(ctx, dev, steps).value.ctx, dev.usb.id)
  {
    var n := |ctx.openHandles|;
    assert Open(ctx, dev, steps).value.ctx.openHandles[n].usbId == dev.usb.id;
  }

  /** Closing the handle an open appended restores the context and the device's reference count. */
  lemma CloseUndoesOpen(ctx: Context, dev: Device, steps: OpenSteps)
    requires dev.refs >= 1 && Open(ctx, dev, steps).Ok?
    ensures var o := Open(ctx, dev, steps).value;
      Close(o.ctx, o.dev, |ctx.openHandles|) == (ctx, Some(dev))
  {
    var o := Open(ctx, dev, steps).value;
    var n := |ctx.openHandles|;
    assert o.ctx.openHandles[..n] + o.ctx.openHandles[n + 1..] == ctx.openHandles;
  }
}

=== FILE: model.dfy ===
/**
  The entity graph a UVC device's descriptors are parsed into, the USB
  configuration it is parsed from, and the class codes the parser keys on.

  The library links children to parents with back pointers; here every
  parent owns an ordered sequence of its children and the back pointers are
  implied by nesting.
 */
module UvcModel {
  import opened Bytes
  import opened Common

  /** USB interface class Video and its two subclasses (UVC 1.1, table A-1 and A-2). */
  const CC_VIDEO: byte := 14
  const SC_VIDEOCONTROL: byte := 1
  const SC_VIDEOSTREAMING: byte := 2

  /** Descriptor type of a class-specific interface descriptor (UVC 1.1, table A-4). */
  const CS_INTERFACE: byte := 36

  /** VideoControl descriptor subtypes (UVC 1.1, table A-5). */
  const VC_HEADER: byte := 1
  const VC_INPUT_TERMINAL: byte := 2
  const VC_OUTPUT_TERMINAL: byte := 3
  const VC_SELECTOR_UNIT: byte := 4
  const VC_PROCESSING_UNIT: byte := 5
  const VC_EXTENSION_UNIT: byte := 6

  /** VideoStreaming descriptor subtypes (UVC 1.1, table A-6). */
  const VS_INPUT_HEADER: byte := 1
  const VS_FORMAT_UNCOMPRESSED: byte := 4
  const VS_FRAME_UNCOMPRESSED: byte := 5

  /** Input terminal type of a camera sensor (UVC 1.1, table B-2). */
  const ITT_CAMERA: uint16 := 0x0201

  /** The UVC versions the header parser accepts, as bcdUVC values: 1.0, 1.0a and 1.1. */
  predicate SupportedVersion(bcd: nat)
  {
    bcd == 0x0100 || bcd == 0x010A || bcd == 0x0110
  }

  // ---------------------------------------------------------------------
  // The USB configuration: what the transport library hands the parser.
  // ---------------------------------------------------------------------

  /**
    One alternate setting of a USB interface: its class codes, interface
    number, the address of its first endpoint when it has any, and the
    class-specific descriptor bytes that follow the interface descriptor.
   */
  datatype AltSetting = AltSetting(
    interfaceClass: byte,
    interfaceSubClass: byte,
    interfaceNumber: byte,
    firstEndpoint: Option<byte>,
    extra: seq<byte>)

  /** A USB interface: its first alternate setting, which the parser reads, and any others. */
  datatype Interface = Interface(first: AltSetting, others: seq<AltSetting>)

  /** Configuration 0 of a device: its interfaces, indexed by position. */
  type Config = seq<Interface>

  predicate IsVideoControl(alt: AltSetting)
  {
    alt.interfaceClass == CC_VIDEO && alt.interfaceSubClass == SC_VIDEOCONTROL
  }

  predicate IsVideoStreaming(alt: AltSetting)
  {
    alt.interfaceClass == CC_VIDEO && alt.interfaceSubClass == SC_VIDEOSTREAMING
  }

  // ---------------------------------------------------------------------
  // The entity graph.
  // ---------------------------------------------------------------------

  /** A camera input terminal (UVC 1.1, section 3.7.2.3). */
  datatype InputTerminal = InputTerminal(
    terminalId: byte,
    terminalType: uint16,
    objectiveFocalLengthMin: uint16,
    objectiveFocalLengthMax: uint16,
    ocularFocalLength: uint16,
    controls: uint64)

  /** A processing unit (UVC 1.1, section 3.7.2.5); sourceId names the entity feeding it. */
  datatype ProcessingUnit = ProcessingUnit(unitId: byte, sourceId: byte, controls: uint64)

  /** An extension unit (UVC 1.1, section 3.7.2.6) with its 16-byte vendor GUID. */
  datatype ExtensionUnit = ExtensionUnit(unitId: byte, guidExtensionCode: seq<byte>, controls: uint64)

  /**
    The frame intervals a frame supports: a continuous range, or the list of
    discrete intervals as the library stores it, terminated by a 0 entry.
   */
  datatype FrameIntervals =
    | Continuous(minFrameInterval: uint32, maxFrameInterval: uint32, frameIntervalStep: uint32)
    | Discrete(intervals: seq<uint32>)

  /** An uncompressed video frame descriptor (UVC 1.1 Uncompressed Payload, section 3.1.2). */
  datatype FrameDesc = FrameDesc(
    frameIndex: byte,
    capabilities: byte,
    width: uint16,
    height: uint16,
    minBitRate: uint32,
    maxBitRate: uint32,
    maxVideoFrameBufferSize: uint32,
    defaultFrameInterval: uint32,
    intervals: FrameIntervals)

  /** An uncompressed video format descriptor (UVC 1.1 Uncompressed Payload, section 3.1.1) and its frames in arrival order. */
  datatype FormatDesc = FormatDesc(
    formatIndex: byte,
    guidFormat: seq<byte>,
    bitsPerPixel: byte,
    defaultFrameIndex: byte,
    aspectRatioX: byte,
    aspectRatioY: byte,
    interlaceFlags: byte,
    copyProtect: byte,
    frames: seq<FrameDesc>)

  /** A VideoStreaming interface and its formats in arrival order. */
  datatype StreamingInterface = StreamingInterface(
    interfaceNumber: byte,
    endpointAddress: byte,
    terminalLink: byte,
    formats: seq<FormatDesc>)

  /**
    The VideoControl interface: the UVC version from its header (0 until a
    header is seen), the address of its status interrupt endpoint (0 when it
    has none) and its entities in arrival order.
   */
  datatype ControlInterface = ControlInterface(
    bcdUVC: uint16,
    statusEndpoint: byte,
    inputTerminals: seq<InputTerminal>,
    processingUnits: seq<ProcessingUnit>,
    extensionUnits: seq<ExtensionUnit>)

  /** The parsed descriptor tree of one device. */
  datatype DeviceInfo = DeviceInfo(ctrl: ControlInterface, streams: seq<StreamingInterface>)

  /** The tree the control scan starts from: nothing parsed yet. */
  function EmptyInfo(statusEndpoint: byte): DeviceInfo
  {
    DeviceInfo(ControlInterface(0, statusEndpoint, [], [], []), [])
  }

  /** The stream record the streaming scan starts from. */
  function EmptyStream(interfaceNumber: byte): StreamingInterface
  {
    StreamingInterface(interfaceNumber, 0, 0, [])
  }

  /** A discrete interval list is non-empty and ends with its 0 terminator. */
  predicate WellFormedIntervals(iv: FrameIntervals)
  {
    iv.Discrete? ==> 2 <= |iv.intervals| && iv.intervals[|iv.intervals| - 1] == 0
  }

  /** Every frame of every format of si has a well-formed interval description. */
  predicate WellFormedStream(si: StreamingInterface)
  {
    forall f, fr :: f in si.formats && fr in f.frames ==> WellFormedIntervals(fr.intervals)
  }
}

=== FILE: scan.dfy ===
/**
  The loop that walks a region of class-specific descriptor bytes. The
  VideoControl scan and the VideoStreaming scan run the same loop and differ
  only in the per-block parser and the state it updates (src/device.c:590-601
  and 787-798).

  Each descriptor starts with its own length byte. The loop stops, without
  error, once fewer than 3 bytes remain; otherwise it hands the block that
  length byte describes to the parser and advances by that length, whatever
  the parser looked at. The first parser error ends the scan.
 */
module DescriptorScan {
  import opened Bytes
  import opened Common

  /**
    The scan. A length byte of 0, or one that runs past the end of the region,
    is rejected as Malformed before the block is parsed. The library parses
    the block first and stops with the parser's error if there is one; only
    when that parse succeeds does its loop spin forever on the first and wrap
    its unsigned byte count on the second.
   */
  function Scan<S>(region: seq<byte>, s: S, parse: (S, seq<byte>) -> Result<S>): (r: Result<S>)
    ensures |region| < 3 ==> r == Ok(s)
    ensures |region| >= 3 && (region[0] == 0 || region[0] > |region|) ==> r == Err(Malformed)
    decreases |region|
  {
    if |region| < 3 then Ok(s)
    else
      var len := region[0];
      if len == 0 || len > |region| then Err(Malformed)
      else match parse(s, region[..len])
        case Err(e) => Err(e)
        case Ok(t) => Scan(region[len..], t, parse)
  }

  // ---------------------------------------------------------------------
  // An independent description of the scan: first cut the region into the
  // blocks the loop visits, then run the parser over them in order.
  // ---------------------------------------------------------------------

  /** The blocks a scan visits, and whether the walk reached a short tail (complete) or a bad length byte. */
  datatype Framing = Framing(blocks: seq<seq<byte>>, complete: bool)

  function Concat(blocks: seq<seq<byte>>): seq<byte>
  {
    if |blocks| == 0 then [] else blocks[0] + Concat(blocks[1..])
  }

  /** Cuts region into self-delimited blocks, stopping at a tail of fewer than 3 bytes or at a bad length byte. */
  function Frame(region: seq<byte>): Framing
    decreases |region|
  {
    if |region| < 3 then Framing([], true)
    else
      var len := region[0];
      if len == 0 || len > |region| then Framing([], false)
      else
        var tail := Frame(region[len..]);
        Framing([region[..len]] + tail.blocks, tail.complete)
  }

  /** Runs parse over blocks in order; the first error is the result. */
  function Apply<S>(blocks: seq<seq<byte>>, s: S, parse: (S, seq<byte>) -> Result<S>): Result<S>
  {
    if |blocks| == 0 then Ok(s)
    else match parse(s, blocks[0])
      case Err(e) => Err(e)
      case Ok(t) => Apply(blocks[1..], t, parse)
  }

  lemma ConcatCons(b: seq<byte>, bs: seq<seq<byte>>)
    ensures Concat([b] + bs) == b + Concat(bs)
  {
    assert ([b] + bs)[1..] == bs;
  }

  /**
    The framing is what the loop walks: the blocks lie back to back from the
    start of the region, each as long as its own first byte says, each
    starting where at least 3 bytes remain; the walk is complete exactly when
    fewer than 3 bytes are left after the last block, and otherwise stops at
    a length byte that is 0 or runs past the end.
   */
  lemma {:induction false} FrameShape(region: seq<byte>)
    ensures var f := Frame(region);
      && Concat(f.blocks) <= region
      && (forall k :: 0 <= k < |f.blocks| ==> |f.blocks[k]| > 0 && f.blocks[k][0] == |f.blocks[k]|)
      && (forall k :: 0 <= k < |f.blocks| ==> |region| - |Concat(f.blocks[..k])| >= 3)
      && (f.complete <==> |region| - |Concat(f.blocks)| < 3)
      && (!f.complete ==> var rest := region[|Concat(f.blocks)|..]; rest[0] == 0 || rest[0] > |rest|)
    decreases |region|
  {
    var f := Frame(region);
    if |region| >= 3 && 0 < region[0] <= |region| {
      var len := region[0];
      var head := region[..len];
      var tail := Frame(region[len..]);
      FrameShape(region[len..]);
      assert f.blocks == [head] + tail.blocks;
      ConcatCons(head, tail.blocks);
      assert region == head + region[len..];
      forall k | 0 <= k < |f.blocks|
        ensures |f.blocks[k]| > 0 && f.blocks[k][0] == |f.blocks[k]|
      {
        if k > 0 {
          assert f.blocks[k] == tail.blocks[k - 1];
        }
      }
      forall k | 0 <= k < |f.blocks|
        ensures |region| - |Concat(f.blocks[..k])| >= 3
      {
        if k > 0 {
          assert f.blocks[..k] == [head] + tail.blocks[..k - 1];
          ConcatCons(head, tail.blocks[..k - 1]);
        } else {
          assert f.blocks[..k] == [];
        }
      }
      if !f.complete {
        assert region[|Concat(f.blocks)|..] == region[len..][|Concat(tail.blocks)|..];
      }
    }
  }

  /**
    The scan is the parser applied to the framing in order: its result is the
    first parser error, else Malformed if the walk stopped at a bad length
    byte, else the final state.
   */
  lemma {:induction false} ScanIsApplyOverFrame<S>(region: seq<byte>, s: S, parse: (S, seq<byte>) -> Result<S>)
    ensures Scan(region, s, parse) ==
      (var f := Frame(region);
       match Apply(f.blocks, s, parse)
       case Err(e) => Err(e)
       case Ok(t) => if f.complete then Ok(t) else Err(Malformed))
    decreases |region|
  {
    if |region| >= 3 && 0 < region[0] <= |region| {
      var len := region[0];
      var f := Frame(region);
      assert f.blocks[0] == region[..len];
      assert f.blocks[1..] == Frame(region[len..]).blocks;
      match parse(s, region[..len])
      case Err(e) =>
      case Ok(t) =>
        ScanIsApplyOverFrame(region[len..], t, parse);
    }
  }

  /** An invariant every successful parse step keeps holds of every successful scan's final state. */
  lemma {:induction false} ScanPreserves<S>(region: seq<byte>, s: S, parse: (S, seq<byte>) -> Result<S>, inv: S -> bool)
    requires inv(s)
    requires forall t, b :: inv(t) && parse(t, b).Ok? ==> inv(parse(t, b).value)
    ensures Scan(region, s, parse).Ok? ==> inv(Scan(region, s, parse).value)
    decreases |region|
  {
    if |region| >= 3 && 0 < region[0] <= |region| {
      var len := region[0];
      match parse(s, region[..len])
      case Err(e) =>
      case Ok(t) =>
        ScanPreserves(region[len..], t, parse, inv);
    }
  }

  // ---------------------------------------------------------------------
  // The library's loop bookkeeping as written.
  // ---------------------------------------------------------------------

  /**
    The cursor of the library's loop: the offset of the next block and the
    count of bytes left, a size_t.
   */
  datatype Cursor = Cursor(offset: nat, left: uint64)

  /**
    One turn of the library's loop as written: the cursor moves by the
    block's length byte and the unsigned count of bytes left drops by it,
    wrapping below zero. The loop runs again while left >= 3.
   */
  function StepAsWritten(region: seq<byte>, c: Cursor): (next: Cursor)
    requires c.offset < |region|
    ensures next.offset == c.offset + region[c.offset] as int
    ensures region[c.offset] as int <= c.left ==> next.left == c.left - region[c.offset] as int
    ensures region[c.offset] as int > c.left ==> next.left == TWO_64 + c.left - region[c.offset] as int
  {
    var size := region[c.offset];
    Cursor(c.offset + size, (c.left - size) % TWO_64)
  }

  /**
    A block whose length byte is 0 leaves the cursor where it was while the
    loop's guard still holds: whenever the block's parse succeeds, the loop
    never ends.
   */
  lemma ZeroLengthBlockLoopsForever()
    ensures var c := Cursor(0, 3);
      StepAsWritten([0, 0, 0], c) == c && c.left >= 3
  {
  }

  /**
    A block whose length byte runs past the end wraps the byte count to a huge
    value: whenever the block's parse succeeds, the loop goes on reading
    beyond the region.
   */
  lemma OverlongBlockWrapsCount()
    ensures var next := StepAsWritten([9, 36, 2], Cursor(0, 3));
      next.left == TWO_64 - 6 && next.left >= 3 && next.offset > 3
  {
  }

  /** The corrected scan rejects both inputs instead. */
  lemma ScanRejectsBadLengths<S>(s: S, parse: (S, seq<byte>) -> Result<S>)
    ensures Scan([0, 0, 0], s, parse) == Err(Malformed)
    ensures Scan([9, 36, 2], s, parse) == Err(Malformed)
  {
  }
}

=== FILE: status.dfy ===
/**
  Status interrupt transfers (UVC 1.1, section 2.4.2.2): decoding one status
  packet into the arguments of the user's status callback, and what the
  completion handler does with the transfer (src/device.c:981-1075).
 */
module Status {
  import opened Bytes
  import opened Common
  import opened UvcModel

  /** The entity kind a VideoControl status packet came from. */
  datatype StatusClass = ControlCamera | ControlProcessing

  /** The arguments the status callback receives. */
  datatype CallbackArgs = CallbackArgs(
    statusClass: StatusClass,
    event: byte,
    selector: byte,
    attribute: byte,
    data: seq<byte>)

  /** The low nibble of bStatusType that marks a VideoControl packet. */
  const STATUS_VIDEOCONTROL: nat := 1

  /** The low nibble of bStatusType that marks a VideoStreaming packet. */
  const STATUS_VIDEOSTREAMING: nat := 2

  /**
    The reference description of a status packet's meaning. Only a
    VideoControl packet of at least 5 bytes from a non-zero originator
    reporting a control change (bEvent 0) yields a callback, and only when
    the originator is a known camera terminal or processing unit, terminals
    taking precedence. The callback carries bSelector, bAttribute and the
    bytes after the fifth as its data.
   */
  ghost function ExpectedCallback(payload: seq<byte>, info: DeviceInfo): Option<CallbackArgs>
  {
    if |payload| < 5 || payload[0] % 16 != STATUS_VIDEOCONTROL || payload[1] == 0 || payload[2] != 0 then None
    else
      var originator := payload[1];
      var cls :=
        if exists t :: t in info.ctrl.inputTerminals && t.terminalId == originator then Some(ControlCamera)
        else if exists u :: u in info.ctrl.processingUnits && u.unitId == originator then Some(ControlProcessing)
        else None;
      match cls
      case None => None
      case Some(c) => Some(CallbackArgs(c, 0, payload[3], payload[4], payload[5..]))
  }

  /**
    Decodes one status packet: searches the terminals, then the processing
    units, for the originator.
   */
  method ProcessStatus(payload: seq<byte>, info: DeviceInfo) returns (r: Option<CallbackArgs>)
    ensures r == ExpectedCallback(payload, info)
    ensures |payload| < 5 ==> r.None?
    ensures r.Some? ==> r.value.data == payload[5..] && r.value.selector == payload[3] && r.value.attribute == payload[4]
  {
    if |payload| < 4 {
      return None;
    }
    var originator := payload[1];
    if payload[0] as int % 16 != STATUS_VIDEOCONTROL || |payload| < 5 || originator == 0 || payload[2] != 0 {
      return None;
    }
    var terms := info.ctrl.inputTerminals;
    var i := 0;
    while i < |terms| && terms[i].terminalId != originator
      invariant 0 <= i <= |terms|
      invariant forall j :: 0 <= j < i ==> terms[j].terminalId != originator
    {
      i := i + 1;
    }
    if i < |terms| {
      return Some(CallbackArgs(ControlCamera, 0, payload[3], payload[4], payload[5..]));
    }
    var units := info.ctrl.processingUnits;
    var k := 0;
    while k < |units| && units[k].unitId != originator
      invariant 0 <= k <= |units|
      invariant forall j :: 0 <= j < k ==> units[j].unitId != originator
    {
      k := k + 1;
    }
    if k < |units| {
      return Some(CallbackArgs(ControlProcessing, 0, payload[3], payload[4], payload[5..]));
    }
    return None;
  }

  /** How a transfer completed, as the transport reports it. */
  datatype TransferStatus =
    | Completed
    | Failed        // LIBUSB_TRANSFER_ERROR
    | TimedOut
    | Cancelled
    | Stalled
    | Disconnected  // LIBUSB_TRANSFER_NO_DEVICE
    | Overflowed

  /**
    The status transfer's completion handler: a completed transfer is
    decoded; the transfer is submitted again unless it failed, was cancelled
    or its device is gone.
   */
  method OnStatusTransfer(status: TransferStatus, payload: seq<byte>, info: DeviceInfo)
    returns (callback: Option<CallbackArgs>, resubmit: bool)
    ensures resubmit <==> status !in {Failed, Cancelled, Disconnected}
    ensures status == Completed ==> callback == ExpectedCallback(payload, info)
    ensures status != Completed ==> callback.None?
  {
    callback := None;
    if status == Failed || status == Cancelled || status == Disconnected {
      return None, false;
    }
    if status == Completed {
      callback := ProcessStatus(payload, info);
    }
    resubmit := true;
  }

  // ---------------------------------------------------------------------
  // The packet decoder as written.
  // ---------------------------------------------------------------------

  /**
    What the library's decoder does with a packet as written: return
    without calling back, or call back with the arguments it holds at that
    point. A class of None is the status class left unset, and an attribute
    of None is the attribute's initial UNKNOWN value.
   */
  datatype AsWrittenCall =
    | NoCall
    | Call(statusClass: Option<StatusClass>, event: byte, selector: byte, attribute: Option<byte>, data: seq<byte>)

  /**
    The library's decoder step by step: a packet under 4 bytes is dropped;
    on a VideoControl packet (low nibble 1) it needs 5 bytes, a non-zero
    originator and event 0, then looks the originator up among the input
    terminals and, failing that, the processing units; a VideoStreaming
    packet (nibble 2) is dropped; any other nibble falls through to the call
    with the initial arguments.
   */
  function DecodeAsWritten(payload: seq<byte>, info: DeviceInfo): AsWrittenCall
  {
    if |payload| < 4 then NoCall
    else
      var originator := payload[1];
      var nibble := payload[0] % 16;
      if nibble == STATUS_VIDEOCONTROL then
        if |payload| < 5 then NoCall
        else
          var event := payload[2];
          var selector := payload[3];
          if originator == 0 || event != 0 then NoCall
          else
            var cls :=
              if FirstIndex(info.ctrl.inputTerminals, (t: InputTerminal) => t.terminalId == originator).Some? then
                Some(ControlCamera)
              else if FirstIndex(info.ctrl.processingUnits, (u: ProcessingUnit) => u.unitId == originator).Some? then
                Some(ControlProcessing)
              else None;
            if cls.None? then NoCall
            else Call(cls, event, selector, Some(payload[4]), payload[5..])
      else if nibble == STATUS_VIDEOSTREAMING then NoCall
      else Call(None, 0, 0, None, [])
  }

  /** The callback arguments an as-written call carries, when its class and attribute are set. */
  function CallbackOf(c: AsWrittenCall): Option<CallbackArgs>
  {
    if c.Call? && c.statusClass.Some? && c.attribute.Some? then
      Some(CallbackArgs(c.statusClass.value, c.event, c.selector, c.attribute.value, c.data))
    else None
  }

  /**
    On VideoControl packets the decoder as written and the reference agree:
    it calls back exactly when the reference yields arguments, and with
    those arguments.
   */
  lemma AsWrittenAgreesOnVideoControl(payload: seq<byte>, info: DeviceInfo)
    requires |payload| >= 1 && payload[0] % 16 == STATUS_VIDEOCONTROL
    ensures DecodeAsWritten(payload, info).Call? <==> ExpectedCallback(payload, info).Some?
    ensures CallbackOf(DecodeAsWritten(payload, info)) == ExpectedCallback(payload, info)
  {
  }

  /**
    A 5-byte packet from a known camera terminal whose status type is 3,
    neither VideoControl nor VideoStreaming, reaches the callback as written
    with its class unset; the reference drops it.
   */
  lemma UnknownStatusTypeReachesCallback(t: InputTerminal, info: DeviceInfo)
    requires t.terminalId == 5 && info.ctrl.inputTerminals == [t]
    ensures DecodeAsWritten([3, 5, 0, 7, 3], info) == Call(None, 0, 0, None, [])
    ensures ExpectedCallback([3, 5, 0, 7, 3], info).None?
    ensures ExpectedCallback([1, 5, 0, 7, 3], info).Some?
  {
    assert t in info.ctrl.inputTerminals;
  }

  /** A terminal's packet of 6 bytes carries one byte of data. */
  lemma SixBytePacketCarriesOneByte(t: InputTerminal, info: DeviceInfo)
    requires t.terminalId == 5 && info.ctrl.inputTerminals == [t]
    ensures ExpectedCallback([1, 5, 0, 7, 3, 9], info) == Some(CallbackArgs(ControlCamera, 0, 7, 3, [9]))
  {
    assert t in info.ctrl.inputTerminals;
    assert [1, 5, 0, 7, 3, 9][5..] == [9];
  }
}

=== FILE: streaming.dfy ===
/**
  The VideoStreaming side of the descriptor parser: the per-block dispatch,
  the input header, the uncompressed format and frame descriptors, and the
  scan of one streaming interface (src/device.c:767-923).

  Every sub-parser reads only inside the block its length byte delimits; a
  block too short for the fields the parser reads is Malformed.
 */
module StreamingParser {
  import opened Bytes
  import opened Common
  import opened UvcModel
  import DescriptorScan

  // ---------------------------------------------------------------------
  // Input header (UVC 1.1, section 3.9.2.1).
  // ---------------------------------------------------------------------

  /**
    bEndpointAddress with its reserved bits 4 to 6 cleared, as the source's
    `& 0x8f` does: the endpoint number and the direction bit survive.
   */
  function EndpointAddress(b: byte): (r: byte)
    ensures r % 16 == b % 16
    ensures r / 128 == b / 128
    ensures r / 16 % 8 == 0
  {
    b % 16 + 128 * (b / 128)
  }

  /**
    The input header names the stream's data endpoint (offset 6) and the
    terminal the stream is linked to (offset 8); nothing else changes.
   */
  function ParseInputHeader(si: StreamingInterface, block: seq<byte>): (r: Result<StreamingInterface>)
    ensures |block| < 9 <==> r == Err(Malformed)
    ensures r.Ok? ==> r.value == si.(endpointAddress := EndpointAddress(block[6]), terminalLink := block[8])
  {
    if |block| < 9 then Err(Malformed)
    else Ok(si.(endpointAddress := EndpointAddress(block[6]), terminalLink := block[8]))
  }

  // ---------------------------------------------------------------------
  // Uncompressed format (UVC 1.1 Uncompressed Payload, section 3.1.1).
  // ---------------------------------------------------------------------

  const FORMAT_LENGTH: nat := 27

  /** f is what the 27-byte uncompressed format descriptor block describes, with no frames yet. */
  ghost predicate DescribesFormat(block: seq<byte>, f: FormatDesc)
  {
    && |block| >= FORMAT_LENGTH
    && f.formatIndex == block[3]
    && f.guidFormat == block[5..21]
    && f.bitsPerPixel == block[21]
    && f.defaultFrameIndex == block[22]
    && f.aspectRatioX == block[23]
    && f.aspectRatioY == block[24]
    && f.interlaceFlags == block[25]
    && f.copyProtect == block[26]
    && f.frames == []
  }

  /** Appends the format the block describes to the stream's formats. */
  function ParseFormatUncompressed(si: StreamingInterface, block: seq<byte>): (r: Result<StreamingInterface>)
    ensures |block| < FORMAT_LENGTH <==> r == Err(Malformed)
    ensures r.Ok? ==> |r.value.formats| == |si.formats| + 1
    ensures r.Ok? ==> r.value == si.(formats := si.formats + [r.value.formats[|si.formats|]])
    ensures r.Ok? ==> DescribesFormat(block, r.value.formats[|si.formats|])
  {
    if |block| < FORMAT_LENGTH then Err(Malformed)
    else
      var f := FormatDesc(block[3], block[5..21], block[21], block[22], block[23], block[24], block[25], block[26], []);
      Ok(si.(formats := si.formats + [f]))
  }

  /** The descriptor block of a format announcing numFrames frames. */
  function EncodeFormat(f: FormatDesc, numFrames: byte): (block: seq<byte>)
    requires |f.guidFormat| == 16
    ensures |block| == FORMAT_LENGTH && block[0] == |block|
    ensures block[1] == CS_INTERFACE && block[2] == VS_FORMAT_UNCOMPRESSED
  {
    [FORMAT_LENGTH, CS_INTERFACE, VS_FORMAT_UNCOMPRESSED, f.formatIndex, numFrames] + f.guidFormat
      + [f.bitsPerPixel, f.defaultFrameIndex, f.aspectRatioX, f.aspectRatioY, f.interlaceFlags, f.copyProtect]
  }

  /** Parsing an encoded format appends exactly that format. */
  lemma FormatRoundTrip(si: StreamingInterface, f: FormatDesc, numFrames: byte)
    requires |f.guidFormat| == 16 && f.frames == []
    ensures ParseFormatUncompressed(si, EncodeFormat(f, numFrames)) == Ok(si.(formats := si.formats + [f]))
  {
    var block := EncodeFormat(f, numFrames);
    assert block[5..21] == f.guidFormat;
  }

  // ---------------------------------------------------------------------
  // Uncompressed frame (UVC 1.1 Uncompressed Payload, section 3.1.2).
  // ---------------------------------------------------------------------

  /**
    The length a frame block needs: byte 25 is the interval type; 0 means a
    continuous range of three dwords, N > 0 means N discrete dwords.
   */
  function FrameLength(block: seq<byte>): nat
    requires |block| >= 26
  {
    if block[25] == 0 then 38 else 26 + 4 * block[25] as int
  }

  /** fr is what the frame descriptor block describes. */
  ghost predicate DescribesFrame(block: seq<byte>, fr: FrameDesc)
  {
    && |block| >= 26
    && |block| >= FrameLength(block)
    && fr.frameIndex == block[3]
    && fr.capabilities == block[4]
    && fr.width == Le16(block, 5)
    && fr.height == Le16(block, 7)
    && fr.minBitRate == Le32(block, 9)
    && fr.maxBitRate == Le32(block, 13)
    && fr.maxVideoFrameBufferSize == Le32(block, 17)
    && fr.defaultFrameInterval == Le32(block, 21)
    && DescribesIntervals(block, fr.intervals)
  }

  /**
    iv is the interval description a frame block carries from byte 25 on:
    a bFrameIntervalType of 0 is a continuous range, any other count N is N
    discrete intervals followed by the 0 terminator.
   */
  ghost predicate DescribesIntervals(block: seq<byte>, iv: FrameIntervals)
  {
    && |block| >= 26
    && |block| >= FrameLength(block)
    && (block[25] == 0 ==>
          iv == Continuous(Le32(block, 26), Le32(block, 30), Le32(block, 34)))
    && (block[25] > 0 ==>
          && iv.Discrete?
          && |iv.intervals| == block[25] as int + 1
          && (forall k :: 0 <= k < block[25] ==> iv.intervals[k] == Le32(block, 26 + 4 * k))
          && iv.intervals[block[25]] == 0)
  }

  /** The N discrete intervals starting at byte 26, then the 0 terminator the library appends. */
  function ReadIntervals(block: seq<byte>): (iv: seq<uint32>)
    requires |block| >= 26 && block[25] > 0 && |block| >= FrameLength(block)
    ensures |iv| == block[25] as int + 1 && iv[block[25]] == 0
    ensures forall k :: 0 <= k < block[25] ==> iv[k] == Le32(block, 26 + 4 * k)
  {
    var n := block[25];
    seq(n, k requires 0 <= k < n => Le32(block, 26 + 4 * k)) + [0]
  }

  /** The stream with fr appended to the frames of its most recently appended format. */
  function AppendFrame(si: StreamingInterface, fr: FrameDesc): (r: StreamingInterface)
    requires |si.formats| > 0
    ensures |r.formats| == |si.formats|
    ensures r.formats[..|si.formats| - 1] == si.formats[..|si.formats| - 1]
    ensures var last, last' := si.formats[|si.formats| - 1], r.formats[|si.formats| - 1];
      last' == last.(frames := last.frames + [fr])
    ensures r.interfaceNumber == si.interfaceNumber && r.endpointAddress == si.endpointAddress
      && r.terminalLink == si.terminalLink
  {
    var n := |si.formats|;
    var last := si.formats[n - 1];
    si.(formats := si.formats[..n - 1] + [last.(frames := last.frames + [fr])])
  }

  /**
    Appends the frame the block describes to the most recently appended
    format. A frame with no format before it is Malformed: the library
    dereferences an empty format list there.
   */
  function ParseFrameUncompressed(si: StreamingInterface, block: seq<byte>): (r: Result<StreamingInterface>)
    ensures r.Ok? <==> |si.formats| > 0 && |block| >= 26 && |block| >= FrameLength(block)
    ensures r.Err? ==> r.error == Malformed
    ensures r.Ok? ==> exists fr :: DescribesFrame(block, fr) && r.value == AppendFrame(si, fr)
  {
    if |si.formats| == 0 || |block| < 26 || |block| < FrameLength(block) then Err(Malformed)
    else
      var intervals :=
        if block[25] == 0 then Continuous(Le32(block, 26), Le32(block, 30), Le32(block, 34))
        else Discrete(ReadIntervals(block));
      var fr := FrameDesc(block[3], block[4], Le16(block, 5), Le16(block, 7), Le32(block, 9),
                          Le32(block, 13), Le32(block, 17), Le32(block, 21), intervals);
      assert DescribesFrame(block, fr);
      Ok(AppendFrame(si, fr))
  }

  /** A frame that can be written back as a descriptor: at most 57 discrete intervals fit in 255 bytes. */
  predicate Encodable(fr: FrameDesc)
  {
    fr.intervals.Discrete? ==>
      2 <= |fr.intervals.intervals| <= 58 && fr.intervals.intervals[|fr.intervals.intervals| - 1] == 0
  }

  /** The little-endian dwords of vs, back to back. */
  function EncodeDwords(vs: seq<uint32>): (bs: seq<byte>)
    ensures |bs| == 4 * |vs|
  {
    if |vs| == 0 then [] else LeBytes(vs[0], 4) + EncodeDwords(vs[1..])
  }

  lemma {:induction false} EncodeDwordsRead(vs: seq<uint32>, k: nat)
    requires k < |vs|
    ensures Le32(EncodeDwords(vs), 4 * k) == vs[k]
  {
    var bs := EncodeDwords(vs);
    if k == 0 {
      assert bs[0..4] == LeBytes(vs[0], 4);
      Le32OfLeBytes(vs[0]);
      assert LeBytes(vs[0], 4)[0..4] == LeBytes(vs[0], 4);
    } else {
      EncodeDwordsRead(vs[1..], k - 1);
      assert bs[4 * k..4 * k + 4] == EncodeDwords(vs[1..])[4 * (k - 1)..4 * (k - 1) + 4];
    }
  }

  /** The bytes after byte 25: the interval type, then the intervals. */
  function EncodeIntervals(iv: FrameIntervals): (bs: seq<byte>)
    requires iv.Discrete? ==> 2 <= |iv.intervals| <= 58
  {
    match iv
    case Continuous(lo, hi, step) => [0] + EncodeDwords([lo, hi, step])
    case Discrete(vs) => [|vs| - 1] + EncodeDwords(vs[..|vs| - 1])
  }

  /** The four dword fields of a frame at offsets 9, 13, 17 and 21. */
  function FrameDwords(fr: FrameDesc): seq<uint32>
  {
    [fr.minBitRate, fr.maxBitRate, fr.maxVideoFrameBufferSize, fr.defaultFrameInterval]
  }

  /** Bytes 0 to 24 of a frame block of the given length. */
  function FrameHead(fr: FrameDesc, len: byte): (head: seq<byte>)
    ensures |head| == 25
  {
    [len, CS_INTERFACE, VS_FRAME_UNCOMPRESSED, fr.frameIndex, fr.capabilities]
      + LeBytes(fr.width, 2) + LeBytes(fr.height, 2) + EncodeDwords(FrameDwords(fr))
  }

  /** The descriptor block of an uncompressed frame. */
  function EncodeFrame(fr: FrameDesc): (block: seq<byte>)
    requires Encodable(fr)
    ensures |block| >= 26 && block[0] == |block|
    ensures block[1] == CS_INTERFACE && block[2] == VS_FRAME_UNCOMPRESSED
  {
    var tail := EncodeIntervals(fr.intervals);
    FrameHead(fr, 25 + |tail|) + tail
  }

  lemma FrameHeadFields(fr: FrameDesc, len: byte)
    ensures var h := FrameHead(fr, len);
      && h[3] == fr.frameIndex && h[4] == fr.capabilities
      && Le16(h, 5) == fr.width && Le16(h, 7) == fr.height
      && Le32(h, 9) == fr.minBitRate && Le32(h, 13) == fr.maxBitRate
      && Le32(h, 17) == fr.maxVideoFrameBufferSize && Le32(h, 21) == fr.defaultFrameInterval
  {
    var h := FrameHead(fr, len);
    var dws := FrameDwords(fr);
    assert h[5..7] == LeBytes(fr.width, 2);
    Le16OfLeBytes(fr.width);
    assert LeBytes(fr.width, 2)[0..2] == LeBytes(fr.width, 2);
    assert h[7..9] == LeBytes(fr.height, 2);
    Le16OfLeBytes(fr.height);
    assert LeBytes(fr.height, 2)[0..2] == LeBytes(fr.height, 2);
    assert h[9..] == EncodeDwords(dws);
    DwordAt(h, 9, dws, 0);
    DwordAt(h, 9, dws, 1);
    DwordAt(h, 9, dws, 2);
    DwordAt(h, 9, dws, 3);
  }

  /** A dword read from bytes that hold EncodeDwords(vs) from offset at on. */
  lemma DwordAt(s: seq<byte>, at: nat, vs: seq<uint32>, k: nat)
    requires at <= |s| && s[at..] == EncodeDwords(vs) && k < |vs|
    ensures Le32(s, at + 4 * k) == vs[k]
  {
    EncodeDwordsRead(vs, k);
    Le32Shift(s, at, 4 * k);
  }

  /** Reading at at + i is reading the suffix from at at i. */
  lemma Le32Shift(s: seq<byte>, at: nat, i: nat)
    requires at + i + 4 <= |s|
    ensures Le32(s, at + i) == Le32(s[at..], i)
  {
    assert s[at..][i..i + 4] == s[at + i..at + i + 4];
  }

  /** An encoded frame is described, field by field, by the frame it encodes. */
  lemma FrameEncodingDescribes(fr: FrameDesc)
    requires Encodable(fr)
    ensures DescribesFrame(EncodeFrame(fr), fr)
  {
    var tail := EncodeIntervals(fr.intervals);
    var head := FrameHead(fr, 25 + |tail|);
    var block := EncodeFrame(fr);
    FrameHeadFields(fr, 25 + |tail|);
    assert block[..25] == head;
    assert block[5..7] == head[5..7];
    assert block[7..9] == head[7..9];
    assert block[9..13] == head[9..13];
    assert block[13..17] == head[13..17];
    assert block[17..21] == head[17..21];
    assert block[21..25] == head[21..25];
    assert block[25..] == tail;
    IntervalsEncodingDescribes(block, fr.intervals);
  }

  /** Bytes that carry EncodeIntervals(iv) from offset 25 on describe iv. */
  lemma IntervalsEncodingDescribes(block: seq<byte>, iv: FrameIntervals)
    requires iv.Discrete? ==> 2 <= |iv.intervals| <= 58 && iv.intervals[|iv.intervals| - 1] == 0
    requires |block| >= 25 && block[25..] == EncodeIntervals(iv)
    ensures DescribesIntervals(block, iv)
  {
    match iv
    case Continuous(lo, hi, step) =>
      assert block[26..] == EncodeDwords([lo, hi, step]);
      DwordAt(block, 26, [lo, hi, step], 0);
      DwordAt(block, 26, [lo, hi, step], 1);
      DwordAt(block, 26, [lo, hi, step], 2);
    case Discrete(vs) =>
      var n := |vs| - 1;
      assert block[26..] == EncodeDwords(vs[..n]);
      forall k | 0 <= k < n
        ensures Le32(block, 26 + 4 * k) == vs[k]
      {
        DwordAt(block, 26, vs[..n], k);
      }
  }

  /** Parsing an encoded frame appends exactly that frame to the last format. */
  lemma FrameRoundTrip(si: StreamingInterface, fr: FrameDesc)
    requires Encodable(fr) && |si.formats| > 0
    ensures ParseFrameUncompressed(si, EncodeFrame(fr)) == Ok(AppendFrame(si, fr))
  {
    var block := EncodeFrame(fr);
    FrameEncodingDescribes(fr);
    var r := ParseFrameUncompressed(si, block);
    var g :| DescribesFrame(block, g) && r.value == AppendFrame(si, g);
    DescribedFrameIsUnique(block, fr, g);
  }

  /** A block describes at most one frame. */
  lemma DescribedFrameIsUnique(block: seq<byte>, f: FrameDesc, g: FrameDesc)
    requires DescribesFrame(block, f) && DescribesFrame(block, g)
    ensures f == g
  {
    if block[25] > 0 {
      assert f.intervals.intervals == g.intervals.intervals;
    }
  }

  // ---------------------------------------------------------------------
  // Dispatch and the streaming scan.
  // ---------------------------------------------------------------------

  /**
    One VideoStreaming block, dispatched on its subtype (byte 2): input
    header, uncompressed format and uncompressed frame are parsed, every
    other subtype is skipped without error. The descriptor type (byte 1) is
    not checked here.
   */
  function ParseVs(si: StreamingInterface, block: seq<byte>): (r: Result<StreamingInterface>)
    ensures |block| < 3 ==> r == Err(Malformed)
    ensures |block| >= 3 && block[2] !in {VS_INPUT_HEADER, VS_FORMAT_UNCOMPRESSED, VS_FRAME_UNCOMPRESSED}
      ==> r == Ok(si)
    ensures r.Err? ==> r.error == Malformed
    ensures r.Ok? ==> r.value.interfaceNumber == si.interfaceNumber
    ensures r.Ok? && WellFormedStream(si) ==> WellFormedStream(r.value)
    ensures |block| >= 3 && block[2] == VS_INPUT_HEADER ==> r == ParseInputHeader(si, block)
    ensures |block| >= 3 && block[2] == VS_FORMAT_UNCOMPRESSED ==> r == ParseFormatUncompressed(si, block)
    ensures |block| >= 3 && block[2] == VS_FRAME_UNCOMPRESSED ==> r == ParseFrameUncompressed(si, block)
  {
    if |block| < 3 then Err(Malformed)
    else if block[2] == VS_INPUT_HEADER then ParseInputHeader(si, block)
    else if block[2] == VS_FORMAT_UNCOMPRESSED then ParseFormatUncompressed(si, block)
    else if block[2] == VS_FRAME_UNCOMPRESSED then
      var r := ParseFrameUncompressed(si, block);
      FrameKeepsWellFormed(si, block);
      r
    else Ok(si)
  }

  /**
    As written, the VideoStreaming loop accepts a block of subtype 2 whose
    length byte runs past the end: the parse skips it, and the byte count
    wraps to a huge value with the loop's guard still true. The corrected
    scan returns Malformed.
   */
  lemma OverlongStreamingBlockWraps(si: StreamingInterface)
    ensures ParseVs(si, [9, 36, 2]) == Ok(si)
    ensures var next := DescriptorScan.StepAsWritten([9, 36, 2], DescriptorScan.Cursor(0, 3));
      next.left == TWO_64 - 6 && next.left >= 3
    ensures DescriptorScan.Scan([9, 36, 2], si, ParseVs) == Err(Malformed)
  {
  }

  lemma FrameKeepsWellFormed(si: StreamingInterface, block: seq<byte>)
    ensures var r := ParseFrameUncompressed(si, block);
      r.Ok? && WellFormedStream(si) ==> WellFormedStream(r.value)
  {
    var r := ParseFrameUncompressed(si, block);
    if r.Ok? && WellFormedStream(si) {
      var fr :| DescribesFrame(block, fr) && r.value == AppendFrame(si, fr);
      var n := |si.formats|;
      forall f, g | f in r.value.formats && g in f.frames
        ensures WellFormedIntervals(g.intervals)
      {
        var i :| 0 <= i < n && r.value.formats[i] == f;
        if i < n - 1 {
          assert f == si.formats[i];
        } else {
          assert f.frames == si.formats[n - 1].frames + [fr];
        }
      }
    }
  }

  /**
    The record the streaming scan builds for interface idx on its own: the
    scan of that interface's class-specific bytes from an empty record, and
    Malformed for an index past the interfaces.
   */
  function InterfaceScan(config: Config, idx: byte): (r: Result<StreamingInterface>)
    ensures idx >= |config| ==> r == Err(Malformed)
    ensures r.Ok? ==> idx < |config| && r.value.interfaceNumber == config[idx].first.interfaceNumber
    ensures r.Ok? ==> WellFormedStream(r.value)
  {
    if idx >= |config| then Err(Malformed)
    else
      var alt := config[idx].first;
      var start := EmptyStream(alt.interfaceNumber);
      var inv := (s: StreamingInterface) => WellFormedStream(s) && s.interfaceNumber == alt.interfaceNumber;
      DescriptorScan.ScanPreserves(alt.extra, start, ParseVs, inv);
      DescriptorScan.Scan(alt.extra, start, ParseVs)
  }

  /**
    Scans the streaming interface at position idx of the configuration and
    appends its record. The index comes from the VideoControl header and is
    not checked by the library; one past the interfaces is Malformed here.
   */
  function ScanStreaming(config: Config, info: DeviceInfo, idx: byte): (r: Result<DeviceInfo>)
    ensures idx >= |config| ==> r == Err(Malformed)
    ensures r.Ok? ==> idx < |config| && r.value.ctrl == info.ctrl
    ensures r.Ok? ==> |r.value.streams| == |info.streams| + 1 && r.value.streams[..|info.streams|] == info.streams
    ensures r.Ok? ==> r.value.streams[|info.streams|].interfaceNumber == config[idx].first.interfaceNumber
    ensures r.Ok? ==> WellFormedStream(r.value.streams[|info.streams|])
    ensures idx < |config| ==> match DescriptorScan.Scan(config[idx].first.extra, EmptyStream(config[idx].first.interfaceNumber), ParseVs)
      case Err(e) => r == Err(e)
      case Ok(si) => r.Ok? && r.value.streams[|info.streams|] == si
    ensures r.Ok? <==> InterfaceScan(config, idx).Ok?
    ensures r.Err? ==> r.error == InterfaceScan(config, idx).error
    ensures r.Ok? ==> r.value.streams[|info.streams|] == InterfaceScan(config, idx).value
  {
    match InterfaceScan(config, idx)
    case Err(e) => Err(e)
    case Ok(si) => Ok(info.(streams := info.streams + [si]))
  }
}
